=== FILE: README.md ===
# Liquidity transformer, SCSPR and synthetic token — a Dafny model

This project models the Casper contracts of the Wise liquidity transformer:

- **the liquidity transformer** — investors reserve WISE tokens with cspr during the
  fifteen investment days. After that window anyone may forward the liquidity, once, and
  each investor then collects the tokens bought. If the liquidity is never forwarded,
  investors can ask for a refund.
- **the synthetic token** — the pool arithmetic behind SCSPR, a synthetic cspr token paired
  with wrapped cspr (wcspr) on a Uniswap-style pair. It computes the pair's evaluation,
  the trading fees owed to the master, the amounts its arbitrage routines move, and the
  decisions between them.
- **SCSPR** — the contract around the synthetic token. It handles ownership and one-shot
  definitions, and gates the transformer's deposits and the formation of liquidity.
- **the synthetic helper** and its fixed-point constants.

The model follows the source's own structure:

- Each contract is a class. Its fields are the named keys and dictionaries it updates.
- The dictionaries of the transformer's storage are small classes over maps. Their getters
  supply the defaults the source falls back to.
- The pool formulas are pure functions over the balances they read. They use the uint
  crate's checked U256 arithmetic.
- Errors are values, and a revert leaves every field as it was:
  - a failed `unwrap_or_revert()` is `ApiNone`;
  - a failed `unwrap_or_revert_with(e)` is `e`;
  - an unchecked `+`/`*` that overflows is `Panic`;
  - so is an `as_u128` of a value that does not fit.

Everything the contracts learn from outside is an input of the operation:

- the caller and the current day;
- purse balances;
- the balances a pair or token reports;
- the results of calls into the router, the wcspr contract and the wise token.

Files:

| file | contents |
|---|---|
| `wrappers.dfy` | `Option`, `Result`, and `Outcome` for operations that return nothing |
| `casper_types.dfy` | `Key`, U256/U512, checked operations, integer square root, decimal printing and the uint crate's hexadecimal `FromStr` |
| `helper_data.dfy` | the helper's limb-encoded constants and their decimal values |
| `synthetic_helper.dfy` | paths, the doubled square root, purse halves and differences |
| `synthetic_token.dfy` | pool formulas, fee and arbitrage decisions, the token's state |
| `synthetic_token_event.dfy`, `scspr_event.dfy` | events and their stored names |
| `scspr.dfy` | the SCSPR contract |
| `lt_data.dfy` | the transformer's constants and storage |
| `liquidity_transformer.dfy` | pricing, reservations, forwarding, payouts and refunds |

## Model

| member | source | states |
|---|---|---|
| CasperTypes.ISqrt | synthetic_helper_crate/src/synthetic_helper.rs:32-34 | `integer_sqrt` is the largest r with r·r ≤ n |
| CasperTypes.ISqrtUnique | synthetic_helper_crate/src/synthetic_helper.rs:32-34 | any r with r² ≤ n < (r+1)² is the integer square root |
| CasperTypes.ISqrtOfSquare | synthetic_helper_crate/src/synthetic_helper.rs:32-34 | the square root of k² is k |
| CasperTypes.ISqrtMonotone | synthetic_helper_crate/src/synthetic_helper.rs:32-34 | the integer square root is monotone |
| CasperTypes.DecimalString | scspr/scspr_crate/src/scspr.rs:180 | `to_string` gives decimal digits, at least one, whose base-10 value is the number |
| CasperTypes.DecimalLength | scspr/scspr_crate/src/scspr.rs:180 | a number prints in at most k digits exactly when it is below 10^k |
| CasperTypes.ParseHexU256 | scspr/scspr_crate/src/scspr.rs:180 | `U256::from_str` succeeds exactly when, after an optional `0x`, at most 64 characters remain and all are hex digits, and then yields their base-16 value |
| CasperTypes.HexReadingOfDecimal | scspr/scspr_crate/src/scspr.rs:180 | parsing a number's decimal string as hex fails exactly beyond 64 digits; otherwise it gives at least the number, and exactly the number only below 10 |
| HelperData.PrecisionValues | synthetic_helper_crate/src/data.rs:15-19 | the precision limbs encode 10^6, 10^12, 10^18, 10^24 and 10^30 |
| HelperData.PrecisionPowers | synthetic_helper_crate/src/data.rs:15-19 | each precision power is the previous one times PRECISION_POINTS, as the comments say |
| HelperData.LimitAmountValue | synthetic_helper_crate/src/data.rs:5 | LIMIT_AMOUNT's limbs encode 10^50 |
| HelperData.FeeValues | synthetic_helper_crate/src/data.rs:7-13 | the decimal values of the fee and condition constants |
| HelperData.DerivedConstants | synthetic_helper_crate/src/data.rs:4-24 | PRECISION_DIFF, PRECISION_PROD and PRECISION_FEES_PROD equal the formulas in their comments; DECIMALS is 18 |
| SyntheticHelper.PreparePath | synthetic_helper_crate/src/synthetic_helper.rs:28-30 | the path is exactly [from, to] |
| SyntheticHelper.GetDoubleRoot | synthetic_helper_crate/src/synthetic_helper.rs:32-34 | the result is even and half of it is the integer square root |
| SyntheticHelper.DoubleRootOfSquare | synthetic_helper_crate/src/synthetic_helper.rs:32-34 | the double root of k² is 2k |
| SyntheticHelper.DoubleRootAtMostSum | synthetic_helper_crate/src/synthetic_helper.rs:32-34 | 2·isqrt(w·s) ≤ w + s (arithmetic–geometric mean) |
| SyntheticHelper.GetBalanceHalf | synthetic_helper_crate/src/synthetic_helper.rs:36-41 | 2·half ≤ balance ≤ 2·half + 1 |
| SyntheticHelper.GetBalanceDiff | synthetic_helper_crate/src/synthetic_helper.rs:43-51 | the balance above the amount, saturating at 0, never above the balance |
| SyntheticToken.LiquidityPercent | synthetic_token/synthetic_token_crate/src/synthetic_token.rs:201-213 | total supply·10^12 / LP balance; ApiNone exactly on overflow, Div5 exactly for a zero LP balance |
| SyntheticToken.Evaluation | synthetic_token/synthetic_token_crate/src/synthetic_token.rs:141-153 | wrapped·10^24·synthetic / percent²; succeeds exactly when the percent is computed and nonzero and percent², wrapped·10^24 and wrapped·10^24·synthetic fit; the percent's errors pass through, ApiNone exactly for an overflow, Div8 exactly for a zero percent |
| SyntheticToken.AmountPayout | synthetic_token/synthetic_token_crate/src/synthetic_token.rs:100-116 | amount·percent·10^6·lpBalance / wrapped / 10^18; succeeds exactly when the percent is computed, the three products fit and wrapped > 0; ApiNone exactly for an overflow or the percent's ApiNone, Div6 exactly for a zero wrapped balance, no other error |
| SyntheticToken.EvaluationRatio | synthetic_token/synthetic_token_crate/src/synthetic_token.rs:68-72 | previous·10^24 / current, with ApiNone on overflow and Div1 for a zero current evaluation |
| SyntheticToken.RecipientAmount | synthetic_token/synthetic_token_crate/src/synthetic_token.rs:74-79 | synthetic·10^12 / wrapped, with ApiNone on overflow and Div2 for a zero wrapped balance |
| SyntheticToken.EvaluationRatioUnchanged | synthetic_token/synthetic_token_crate/src/synthetic_token.rs:68-72 | an unchanged evaluation gives the ratio 10^24 exactly |
| SyntheticToken.TradingFeeAmount | synthetic_token/synthetic_token_crate/src/synthetic_token.rs:63-94 | the ratio's errors come first; a computed fee needs a nonzero current evaluation, wrapped balance and percent |
| SyntheticToken.TradingFeeValue | synthetic_token/synthetic_token_crate/src/synthetic_token.rs:63-94 | a computed fee is (10^12 − √ratio)·√recipient·lpBalance / percent / 10^6 |
| SyntheticToken.TradingFeeSub1 | synthetic_token/synthetic_token_crate/src/synthetic_token.rs:81-83 | a ratio whose root exceeds 10^12 reverts with Sub1 |
| SyntheticToken.TradingFeeSub1Cause | synthetic_token/synthetic_token_crate/src/synthetic_token.rs:81-83 | a Sub1 revert comes only from a root above 10^12 |
| SyntheticToken.TradingFeeUnchanged | synthetic_token/synthetic_token_crate/src/synthetic_token.rs:63-94 | an unchanged evaluation yields a fee of 0 |
| SyntheticToken.SqrtTerm | synthetic_token/synthetic_token_crate/src/synthetic_token.rs:155-180 | succeeds exactly when big·small·997500000000·4, small² and small²·inverseFee² fit, and then gives the integer root of big·small·fee·4/10^12 + small²·inverseFee²/10^24; the only error is ApiNone |
| SyntheticToken.ProfitArbitrageRemove | synthetic_token/synthetic_token_crate/src/synthetic_token.rs:354-379 | (w + s − 2√(w·s))·lpBalance·percent / w · 995000 / 10^18; the share's errors pass through, it succeeds exactly when the share times 995000 fits, Div11 exactly for a zero wrapped reserve reached by the share, and never Div12 |
| SyntheticToken.Surplus | synthetic_token/synthetic_token_crate/src/synthetic_token.rs:358-366 | succeeds exactly when w·s and w + s fit in a U256 (ApiNone otherwise), and then gives w + s − 2√(w·s), which cannot underflow |
| SyntheticToken.SurplusShare | synthetic_token/synthetic_token_crate/src/synthetic_token.rs:358-374 | (w + s − 2√(w·s))·lpBalance·percent / w; succeeds exactly when the surplus, the two products and the percent are computed and w > 0; Div5 exactly when the percent divides by a zero LP balance; no error but ApiNone, Div5, Div11 |
| SyntheticToken.SurplusShareDivision | synthetic_token/synthetic_token_crate/src/synthetic_token.rs:358-374 | Div11 exactly when every step before the division succeeds and the wrapped reserve is zero |
| SyntheticToken.ProfitArbitrageNoUnderflow | synthetic_token/synthetic_token_crate/src/synthetic_token.rs:362-366 | the surplus subtraction never underflows once product and sum fit |
| SyntheticToken.ProfitArbitrageBalanced | synthetic_token/synthetic_token_crate/src/synthetic_token.rs:354-379 | a balanced pair has nothing to remove |
| SyntheticToken.LeftOverPercent | synthetic_token/synthetic_token_crate/src/synthetic_token.rs:387-403 | succeeds exactly when w·inverseFee·10^12, sqrtTerm·10^24, their sum and the sum·10^6 fit, 2·s fits and s > 0; the value is (w·inverseFee·10^12 + sqrtTerm·10^24)·10^6 / (2·s); every failure is ApiNone |
| SyntheticToken.ToRemoveCspr | synthetic_token/synthetic_token_crate/src/synthetic_token.rs:381-418 | succeeds exactly when the square-root term and the left-over percentage succeed, the left-over is at most 10^30 and (10^30 − leftOver)·totalSupply fits; the value is (10^30 − leftOver)·totalSupply / 10^30, never above the total supply; every failure is ApiNone |
| SyntheticToken.SwapAmountArbitrageScspr | synthetic_token/synthetic_token_crate/src/synthetic_token.rs:420-445 | succeeds exactly when inverseFee ≤ 2·10^12, s·(2·10^12 − inverseFee), the root term and root·10^12 are computed and the subtraction does not underflow; the result is that numerator divided by 1995·10^9, rounded down |
| SyntheticToken.FeesCondition | synthetic_token/synthetic_token_crate/src/synthetic_token.rs:215-227 | fees are due exactly when current·10^8 > previous·(10^8+1); overflow reverts with ApiNone |
| SyntheticToken.FeesConditionGrowth | synthetic_token/synthetic_token_crate/src/synthetic_token.rs:215-227 | fees are due only after the evaluation strictly grew |
| SyntheticToken.ExtractedFeeNeverSub1 | synthetic_token/synthetic_token_crate/src/synthetic_token.rs:215-250 | once the fee test passes, the fee formula cannot revert with Sub1 |
| SyntheticToken.FeeExtraction | synthetic_token/synthetic_token_crate/src/synthetic_token.rs:215-250 | the evaluation's errors pass through; an overflow in the fee test reverts with ApiNone; no extraction exactly when the fee test fails; when it passes, the trading fee's error is the result, or else its value is extracted; an extracted fee follows a strict rise |
| SyntheticToken.FeeExtractionNeverSub1 | synthetic_token/synthetic_token_crate/src/synthetic_token.rs:215-250 | the fee decision never reverts with Sub1 |
| SyntheticToken.ArbitrageDecision | synthetic_token/synthetic_token_crate/src/synthetic_token.rs:513-522 | cspr branch iff wrapped < synthetic, scspr branch iff wrapped > synthetic, none iff equal |
| SyntheticToken.ArbitrageScsprGuard | synthetic_token/synthetic_token_crate/src/synthetic_token.rs:524-529 | panics exactly on overflow of the unchecked products; proceeds iff wrapped·10^6 > synthetic·(10^6+1) |
| SyntheticToken.ArbitrageCsprGuard | synthetic_token/synthetic_token_crate/src/synthetic_token.rs:594-604 | ApiNone exactly on overflow; proceeds iff wrapped·(10^6+1) < synthetic·10^6 |
| SyntheticToken.ArbitrageGuardsAgreeWithDecision | synthetic_token/synthetic_token_crate/src/synthetic_token.rs:513-604 | passing either guard implies the matching branch of the decision and an imbalance above one part in 10^6 |
| SyntheticToken.ArbitrageOutcome | synthetic_token/synthetic_token_crate/src/synthetic_token.rs:513-669 | no branch passes; in a branch, the guard's error (ApiNone for cspr, Panic for scspr) or its early return comes first, then `_profit_arbitrage_remove`'s error on the pair before, then the error of `_to_remove_cspr` or `_swap_amount_arbitrage_scspr` on the pair after the first removal; otherwise it passes |
| SyntheticToken.EmptyWrappedSurplus | synthetic_token/synthetic_token_crate/src/synthetic_token.rs:358-366 | with an empty wrapped reserve the surplus is the synthetic balance |
| SyntheticToken.EmptyWrappedReserveReverts | synthetic_token/synthetic_token_crate/src/synthetic_token.rs:594-609 | synthetic tokens in the pair but no wrapped ones: the cspr arbitrage passes its guard and always reverts, with `_profit_arbitrage_remove`'s error |
| SyntheticToken.EmptyWrappedReserveDiv11 | synthetic_token/synthetic_token_crate/src/synthetic_token.rs:354-379 | for the pair (0 wcspr, 1000 scspr, 1000 of 1000 LP tokens) the arbitrage reverts with Div11 |
| SyntheticToken.SyntheticToken.constructor | synthetic_token/synthetic_token_crate/src/synthetic_token.rs:26-53 | the caller is owner and master; flags start false and the evaluation at 0 |
| SyntheticToken.SyntheticToken.UpdateEvaluation | synthetic_token/synthetic_token_crate/src/synthetic_token.rs:495-497 | stores the pool's evaluation, or reverts with its error leaving the state alone |
| SyntheticToken.SyntheticToken.FeesDecision | synthetic_token/synthetic_token_crate/src/synthetic_token.rs:215-227 | the decision equals FeeExtraction with the stored evaluation as the previous one |
| SyntheticToken.SyntheticToken.Unwrap | synthetic_token/synthetic_token_crate/src/synthetic_token.rs:465-479 | the bypass flag is on during the withdrawal and off afterwards; nothing else changes |
| SyntheticTokenEvents.TypeName | synthetic_token/synthetic_token_crate/src/event.rs:29-54 | an event's name depends on its variant alone |
| SyntheticTokenEvents.KindOfName | synthetic_token/synthetic_token_crate/src/event.rs:29-54 | a name read back names that variant |
| SyntheticTokenEvents.TypeNameRoundTrip | synthetic_token/synthetic_token_crate/src/event.rs:29-54 | reading back an event's name gives its variant |
| SyntheticTokenEvents.TypeNameDistinct | synthetic_token/synthetic_token_crate/src/event.rs:29-54 | two events share a name iff they share a variant |
| ScsprEvents.TypeName | scspr/scspr_crate/src/event.rs:22-40 | an event's name depends on its variant alone |
| ScsprEvents.KindOfName | scspr/scspr_crate/src/event.rs:22-40 | a name read back names that variant |
| ScsprEvents.TypeNameRoundTrip | scspr/scspr_crate/src/event.rs:22-40 | reading back an event's name gives its variant |
| ScsprEvents.TypeNameDistinct | scspr/scspr_crate/src/event.rs:22-40 | two events share a name iff they share a variant |
| Scspr.Scspr.constructor | scspr/scspr_crate/src/scspr.rs:25-38 | the caller is owner and master; no wise contract; no events |
| Scspr.Scspr.OnlyMaster | scspr/scspr_crate/src/scspr.rs:52-57 | passes iff the caller is the master or the master is the zero address; otherwise InvalidAddress |
| Scspr.Scspr.OnlyTransformer | scspr/scspr_crate/src/scspr.rs:59-73 | ApiNone before the wise contract is set; passes iff the caller is the transformer; otherwise InvalidCallDetected |
| Scspr.Scspr.SetMaster | scspr/scspr_crate/src/scspr.rs:40-45 | only the owner replaces the master (else NotOwner); nothing else changes |
| Scspr.Scspr.SetWise | scspr/scspr_crate/src/scspr.rs:47-50 | the master's gate decides; on success the wise contract is stored |
| Scspr.Scspr.RenounceOwnership | scspr/scspr_crate/src/scspr.rs:240-248 | on success the master is the zero address and every caller then passes `only_master` |
| Scspr.Scspr.ForwardOwnership | scspr/scspr_crate/src/scspr.rs:250-254 | on success the new master is stored; nothing else changes |
| Scspr.Scspr.DefineToken | scspr/scspr_crate/src/scspr.rs:278-299 | succeeds iff the master calls, it was not defined before, and the reported address is this contract; each error case; sets the flag once |
| Scspr.Scspr.DefineHelper | scspr/scspr_crate/src/scspr.rs:301-318 | the same one-shot rule for the transfer helper, with InvalidTransferHelperAddress |
| Scspr.Scspr.CreatePair | scspr/scspr_crate/src/scspr.rs:320-336 | the master's gate decides; on success the pair is stored |
| Scspr.DepositOutcome | scspr/scspr_crate/src/scspr.rs:86-106 | InvalidDeposit before liquidity is formed; then the fee decision's error, then the arbitrage's, then the final evaluation's, in that order; passes exactly when none of them fails |
| Scspr.DepositWithEmptyWrappedReserveReverts | scspr/scspr_crate/src/scspr.rs:98-99 | a deposit while the pair holds synthetic tokens but no wrapped ones never goes through |
| Scspr.Scspr.Deposit | scspr/scspr_crate/src/scspr.rs:86-106 | its verdict is DepositOutcome for the stored flag and evaluation; on success it stores the new evaluation, logs the deposit and leaves the bypass flag off; a failure changes nothing |
| Scspr.Scspr.Receive | scspr/scspr_crate/src/scspr.rs:75-84 | DepositDisabled before liquidity is formed; without the bypass flag it accepts and changes nothing; with it, its verdict and effects are those of the deposit |
| Scspr.Scspr.LiquidityDeposit | scspr/scspr_crate/src/scspr.rs:152-170 | only the transformer, only before liquidity is formed (else InvalidDeposit); logs the deposit |
| Scspr.Scspr.FormLiquidity | scspr/scspr_crate/src/scspr.rs:172-238 | succeeds at most once (InvalidState afterwards) and returns the corrected cover amount, half the contract purse; opens deposits, stores the evaluation, logs the event; a failure changes nothing |
| Scspr.CoverAmountAsWritten | scspr/scspr_crate/src/scspr.rs:179-180 | as written, the cover amount is the half's decimal digits read as hex: it panics from 10^64 on; otherwise it is at least the half, and equals it only below 10 |
| Scspr.CoverAmountAsWrittenMisreads | scspr/scspr_crate/src/scspr.rs:179-180 | a purse of 20 motes gives a cover amount of 16, not 10 |
| Scspr.CoverAmount | scspr/scspr_crate/src/scspr.rs:179-180 | the intended cover amount is half the purse, failing only when it does not fit a U256 |
| Scspr.CoverDepositAsWritten | scspr/scspr_crate/src/scspr.rs:187-195 | as written, the wcspr deposit asks for the half squared, which is never below the intended deposit and equals it only for a contract purse of at most 3 motes |
| Scspr.CoverDepositAsWrittenExceedsPurse | scspr/scspr_crate/src/scspr.rs:187-198 | as written, from a contract purse of 6 motes on, the amount asked for exceeds the whole contract purse |
| Scspr.CoverDeposit | scspr/scspr_crate/src/scspr.rs:187-219 | the intended deposit is the cover amount, the wcspr side of `add_liquidity`, and at most half the purse |
| Scspr.CoverSquareFits | scspr/scspr_crate/src/scspr.rs:193 | the U512 product of the cover amount with itself cannot overflow |
| LtData.ConstantValues | liquidity_transformer/liquidity_transformer_crate/src/data.rs:17-21 | TOKEN_COST is 757 575 under integer division; the caps fit in 128 bits |
| LtData.GlobalNamesDistinct | liquidity_transformer/liquidity_transformer_crate/src/data.rs:35-39 | the global entries are stored under five different names |
| LtData.Globals.GetNumber | liquidity_transformer/liquidity_transformer_crate/src/data.rs:56-58 | a stored counter, or 0 for one never set |
| LtData.Globals.GetFlag | liquidity_transformer/liquidity_transformer_crate/src/data.rs:56-58 | a stored flag, or false for one never set |
| LtData.Globals.SetNumber | liquidity_transformer/liquidity_transformer_crate/src/data.rs:60-62 | the entry reads back as set and no other entry changes |
| LtData.Globals.SetFlag | liquidity_transformer/liquidity_transformer_crate/src/data.rs:60-62 | the flag reads back as set and no other flag changes |
| LtData.AmountDict.Get | liquidity_transformer/liquidity_transformer_crate/src/data.rs:80-82 | an investor's amount, or 0 for one never seen |
| LtData.AmountDict.Set | liquidity_transformer/liquidity_transformer_crate/src/data.rs:84-86 | the amount reads back as set and no other investor's changes |
| LtData.UniqueInvestors.Get | liquidity_transformer/liquidity_transformer_crate/src/data.rs:128-130 | the investor at an index, absent exactly when the index was never written |
| LtData.UniqueInvestors.Set | liquidity_transformer/liquidity_transformer_crate/src/data.rs:132-134 | the index reads back as set and no other index changes |
| LtData.NamedKeys.Get | liquidity_transformer/liquidity_transformer_crate/src/data.rs:206-208 | an address, or the zero address for one never set |
| LtData.NamedKeys.Set | liquidity_transformer/liquidity_transformer_crate/src/data.rs:210-212 | the address reads back as set and no other changes |
| LiquidityTransformer.TypeName | liquidity_transformer/liquidity_transformer_crate/src/liquidity_transformer.rs:64-91 | an event's name depends on its variant alone |
| LiquidityTransformer.KindOfName | liquidity_transformer/liquidity_transformer_crate/src/liquidity_transformer.rs:64-91 | a name read back names that variant |
| LiquidityTransformer.TypeNameRoundTrip | liquidity_transformer/liquidity_transformer_crate/src/liquidity_transformer.rs:64-91 | reading back an event's name gives its variant |
| LiquidityTransformer.TypeNameDistinct | liquidity_transformer/liquidity_transformer_crate/src/liquidity_transformer.rs:64-91 | two events share a name iff they share a variant |
| LiquidityTransformer.GetTokenAmount | liquidity_transformer/liquidity_transformer_crate/src/liquidity_transformer.rs:354-386 | below the cap, value / TOKEN_COST units of 10^9 tokens and nothing back; a purchase crossing the cap buys exactly the rest of MAX_SUPPLY and returns what exceeds the rest of MAX_INVEST; each revert and panic, iff |
| LiquidityTransformer.Checked | liquidity_transformer/liquidity_transformer_crate/src/liquidity_transformer.rs:360-368 | `unwrap_or_revert()` on a checked operation: ApiNone exactly for None |
| LiquidityTransformer.FlowTestPurchases | liquidity_transformer/liquidity_transformer_tests/src/liquidity_transformer_flow_tests.rs:89-113 | the three reservations of 2000, 4000 and 6000 cspr buy 2 640 002·10^9, 5 280 005·10^9 and 7 920 007·10^9 tokens |
| LiquidityTransformer.CapCrossingBelowBudgetReverts | liquidity_transformer/liquidity_transformer_crate/src/liquidity_transformer.rs:354-386 | a value that buys past the cap but is below the rest of MAX_INVEST reverts |
| LiquidityTransformer.CashBack | liquidity_transformer/liquidity_transformer_crate/src/liquidity_transformer.rs:288-326 | paid iff mode 0, the total is below REFUND_CAP and part of the value is kept; 1% of the kept value, cut so the total stays within REFUND_CAP |
| LiquidityTransformer.ReservationEvents | liquidity_transformer/liquidity_transformer_crate/src/liquidity_transformer.rs:288-351 | the reservation event comes last; a cash-back event iff cash-back is paid; a refund event iff part of the value is returned |
| LiquidityTransformer.ReserveCheck | liquidity_transformer/liquidity_transformer_crate/src/liquidity_transformer.rs:247-352 | WrongMode for mode ≥ 6, panic when a new investor cannot be counted; succeeds iff every check passes, buying GetTokenAmount's purchase within MAX_SUPPLY |
| LiquidityTransformer.LiquidityTransformer.constructor | liquidity_transformer/liquidity_transformer_crate/src/liquidity_transformer.rs:95-120 | addresses stored, the caller is the keeper, every dictionary empty |
| LiquidityTransformer.LiquidityTransformer.OnlyKeeper | liquidity_transformer/liquidity_transformer_crate/src/liquidity_transformer.rs:152-156 | passes iff the caller is the settings keeper, else NotKeeper |
| LiquidityTransformer.LiquidityTransformer.PreparePath | liquidity_transformer/liquidity_transformer_crate/src/liquidity_transformer.rs:511-513 | the path from the token to wcspr |
| LiquidityTransformer.LiquidityTransformer.SetSettings | liquidity_transformer/liquidity_transformer_crate/src/liquidity_transformer.rs:160-165 | only the keeper; re-points exactly the wise token, SCSPR and the pair |
| LiquidityTransformer.LiquidityTransformer.RenounceKeeper | liquidity_transformer/liquidity_transformer_crate/src/liquidity_transformer.rs:167-170 | on success the keeper is the zero address and only that address passes `only_keeper` |
| LiquidityTransformer.LiquidityTransformer.ReserveWise | liquidity_transformer/liquidity_transformer_crate/src/liquidity_transformer.rs:124-184 | the day, supply and minimum gates in order; succeeds iff they pass and `_reserve_wise` does, recording the reservation; once the gates pass, a `_reserve_wise` revert raises that revert's own error; a failure changes nothing; the caps are kept |
| LiquidityTransformer.LiquidityTransformer.ReserveWiseWithToken | liquidity_transformer/liquidity_transformer_crate/src/liquidity_transformer.rs:186-245 | the same gates, InvestmentBelowMinimum for a swap below TOKEN_COST, then the reservation of the swapped value, failing with `_reserve_wise`'s own error when that reverts |
| LiquidityTransformer.LiquidityTransformer.Reserve | liquidity_transformer/liquidity_transformer_crate/src/liquidity_transformer.rs:247-352 | reverts exactly when ReserveCheck does, changing nothing; otherwise totals, balance, tokens, investor index, cash-back and events as `_reserve_wise` writes them; every other global number, every flag and every other investor's entries stay |
| LiquidityTransformer.LiquidityTransformer.Record | liquidity_transformer/liquidity_transformer_crate/src/liquidity_transformer.rs:261-351 | the writes of a reservation that passed its checks, keeping the caps |
| LiquidityTransformer.LiquidityTransformer.RecordTotals | liquidity_transformer/liquidity_transformer_crate/src/liquidity_transformer.rs:273-310 | TOTAL_CSPR_CONTRIBUTED grows by the value, TOTAL_TRANSFER_TOKENS by the tokens and CASH_BACK_TOTAL by the cash back paid (capped at REFUND_CAP); the investor count, every other global number and the flags stay |
| LiquidityTransformer.LiquidityTransformer.RecordInvestor | liquidity_transformer/liquidity_transformer_crate/src/liquidity_transformer.rs:261-286 | a new investor gets index INVESTOR_COUNT and the count grows by one; the investor's balance and tokens grow; no other investor changes |
| LiquidityTransformer.LiquidityTransformer.ForwardLiquidity | liquidity_transformer/liquidity_transformer_crate/src/liquidity_transformer.rs:388-482 | OngoingInvestmentPhase during the investment days, Swapped once done; otherwise sets the swap flag and logs the router's result; counters unchanged |
| LiquidityTransformer.LiquidityTransformer.PayoutInvestorAddress | liquidity_transformer/liquidity_transformer_crate/src/liquidity_transformer.rs:489-509 | ForwardLiquidityFirst before forwarding; otherwise pays the investor's tokens and zeroes them |
| LiquidityTransformer.LiquidityTransformer.GetMyTokens | liquidity_transformer/liquidity_transformer_crate/src/liquidity_transformer.rs:484-487 | the caller's own payout |
| LiquidityTransformer.LiquidityTransformer.RequestRefund | liquidity_transformer/liquidity_transformer_crate/src/liquidity_transformer.rs:524-565 | RefundNotPossible after forwarding, without balance or tokens, or before day 26; otherwise returns balance and tokens, zeroes both, lowers the tokens sold, keeps the contributed total, logs the refund; ApiNone when the investor's tokens exceed the tokens sold (the checked subtraction), and no other error |
| LiquidityTransformer.ReservationKeepsCaps | liquidity_transformer/liquidity_transformer_crate/src/liquidity_transformer.rs:288-386 | a reservation keeps the tokens sold within MAX_SUPPLY and the cash-back within REFUND_CAP |

## Findings

| source | as written | input that shows it | evidently intended | confidence | as-written member | corrected member |
|---|---|---|---|---|---|---|
| scspr/scspr_crate/src/scspr.rs:180 | the U512 half of the purse is printed in decimal and parsed back with `U256::from_str`, which reads hexadecimal | a purse of 20 motes: the half 10 prints as "10" and is read as 0x10 = 16 | the cover amount equals the half | medium (the uint crate's `FromStr` is hexadecimal); not executed | Scspr.CoverAmountAsWritten, Scspr.CoverAmountAsWrittenMisreads | Scspr.CoverAmount |
| scspr/scspr_crate/src/scspr.rs:193 | the wcspr deposit is asked for `cover_amount_ * cover_amount_` | a contract purse of 10 motes: the half is 5 and the deposit asks for 25, more than the whole contract purse | deposit the cover amount, the wcspr side passed to `add_liquidity` | low, not executed (the deposit draws on the purse passed to `form_liquidity`, which the model does not see) | Scspr.CoverDepositAsWritten, Scspr.CoverDepositAsWrittenExceedsPurse | Scspr.CoverDeposit |

`Scspr.Scspr.FormLiquidity` uses the corrected cover amount. Its cover amount is `CoverAmount`, and the amount it deposits is `CoverDeposit`.

## Left out

- Purse transfers, token mints and transfers, router swaps, and liquidity additions and removals are calls into other contracts. They are not modelled. Their results are inputs: a purse balance, the pair's balances afterwards, whether the wcspr deposit succeeded, and what `add_liquidity` reports.
- The effectful sequences of the synthetic token are not modelled as sequences:
  - `_extract_and_send_fees`;
  - the bodies of `_arbitrage_scspr` and `_arbitrage_cspr` after their guards;
  - `_clean_up`, `_self_burn`, `_skim_pair`, `_profit`;
  - `_swap_exact_tokens_for_tokens`, `_add_liquidity`, `_remove_liquidity`.

  The amounts they compute are modelled (fee, arbitrage amounts, decisions), and so are the guards that decide whether they run. The same decimal-to-hexadecimal round trip as in `form_liquidity` also appears in the `U512::from_str` calls at synthetic_token.rs:241, 539 and 615. It is not modelled there.
- SCSPR's `withdraw` (scspr.rs:108-118) is not modelled. It has no caller gate. It runs `_clean_up`, `_fees_decision`, `_arbitrage_decision` and `_settle_cspr` (whose unwrap switches the bypass flag), stores a new `current_evaluation` through `_update_evaluation`, and logs a `Withdrawal` event.
- SCSPR's `add_lp_tokens` (scspr.rs:255-277) is not modelled. It is `only_master`; it runs `deposit`, moves `msg_value` into the contract purse, pulls `token_amount` LP tokens from the caller through the router's `transfer_from`, and stores a new `current_evaluation`.
- SCSPR's `_settle_scspr` (scspr.rs:137-150) is not modelled. It mints `amount_withdraw` to the caller and LIMIT_AMOUNT to the contract, deposits `amount_withdraw` into wcspr, adds liquidity and burns the contract's own tokens.
- Scspr.Scspr.Deposit: the reverts of the calls into other contracts are not modelled. These are the payment into the contract purse, `_clean_up` (skim, self-burn, profit transfer), the liquidity removals, swaps and transfers inside the fee extraction and the arbitrage, and `_settle_cspr`'s liquidity removal, purse transfer, burns and its `as_usize`. Of `_settle_cspr`, only the unwrap is modelled, through its effect on the bypass flag. The pair at each step is an input (`DepositViews`), and so is `INVERSE_TRADING_FEE`. The synthetic token's own events during a deposit are not recorded.
- Scspr.Scspr.Receive: the same calls as for `Deposit` are not modelled.
- Scspr.Scspr.LiquidityDeposit: the source moves `msg_value` from the caller's purse to the contract purse twice (scspr.rs:161 and again at scspr.rs:165, after the mint), so the transformer pays twice what is minted, or the second transfer reverts; purse transfers are not modelled, so neither the double charge nor that revert is captured.
- Scspr.Scspr.FormLiquidity: it returns and logs the corrected `CoverAmount`, not the hexadecimal reading `CoverAmountAsWritten` of scspr.rs:180. Its wcspr deposit is the corrected `CoverDeposit`, not the square of scspr.rs:193. The as-written behaviour is modelled by the members in the Findings table.
- `fund_contract`, `current_stakeable_day` and the getters that only read another contract are left out. The stakeable day is an input. The balance getters (`get_wrapped_balance`, `get_synthetic_balance`, `get_lp_token_balance`, `get_pair_balances`) become the fields of `PoolView`.
- The synthetic helper's `_get_balance_of` and `init` only call out or store a purse. They are not modelled.
- The binary entry points (the `bin/` files) only decode arguments and forward to the crate; they are not modelled.
- `INVERSE_TRADING_FEE` is not part of this model; it is a parameter of the arbitrage formulas.
- `TWOTHOUSEND_CSPR` is not part of this model. `FlowTestPurchases` takes it to be 2000 cspr (2·10^12 motes), which agrees with the token amounts the flow test asserts.
- Investors are identified by their `Key`. The per-investor dictionaries in the source are keyed by a hash of the key, which the model takes to be injective.
- `UniqueInvestors.Get` gives `None` for an index never written, where the source's `unwrap` aborts.
- The transformer's storage module defines `pair_wise` and `pair_scspr` but no `uniswap_pair` setter. The model keeps the pair as the named key "uniswap_pair" that `init` and `set_settings` write.
- `AmountToTransferIsZero` is raised by scspr.rs but not declared in the SCSPR error enum. It is modelled as one more error value.
- SCSPR's master address, flags and evaluation live in the synthetic token's named keys. SCSPR and the token therefore share the single `owner` key, and the model holds them in one `SyntheticToken` object.
- SyntheticToken.TradingFeeAmount: its own contract states only the error cases and the nonzero divisors. The full value is stated by `TradingFeeValue`, and the Sub1 case by `TradingFeeSub1`/`TradingFeeSub1Cause`.
- LiquidityTransformer.LiquidityTransformer.ReserveWiseWithToken: the swapped value is an input. The token transfer in and the router swap before it are not modelled.
- LiquidityTransformer.LiquidityTransformer.ForwardLiquidity: the calls to SCSPR (`liquidity_deposit`, `form_liquidity`, `approve`), to the wise token (`mint_supply`, `approve`) and to the router (`add_liquidity`) are not modelled. Only the gates, the flag and the event are.
- An investor's balance is credited with the full value even when part of it is returned because the supply ran out. A later refund then returns that full balance. The model records this as the source does.
- `as_usize` conversions and `into_hash` failures on keys are not modelled. The keys are taken to be valid contract hashes.

=== FILE: casper_types.dfy ===
/** The Casper value types the contracts use: account/contract keys,
    256- and 512-bit unsigned integers with the uint crate's checked
    operations, and its integer square root. */
module CasperTypes {
  import opened Wrappers

  /** A Casper `Key`: an account hash or a contract (package) hash. */
  datatype Key = Account(account: nat) | Hash(hash: nat)

  /** `hash-0000…0000`, the value every address getter falls back to. */
  const ZERO_ADDRESS: Key := Hash(0)

  const U256_MAX: nat := 0xffff_ffff_ffff_ffff_ffff_ffff_ffff_ffff_ffff_ffff_ffff_ffff_ffff_ffff_ffff_ffff
  const U512_MAX: nat := U256_MAX * (U256_MAX + 1) + U256_MAX
  const U128_MAX: nat := 0xffff_ffff_ffff_ffff_ffff_ffff_ffff_ffff

  type U256 = x: nat | x <= U256_MAX
  type U512 = x: nat | x <= U512_MAX
  type U8 = x: nat | x < 256

  /** Value of a little-endian array of four 64-bit limbs, the layout of
      the uint crate's `U256([l0, l1, l2, l3])` constants. */
  function FromLimbs(l0: nat, l1: nat, l2: nat, l3: nat): nat {
    l0 + l1 * 0x1_0000_0000_0000_0000
       + l2 * 0x1_0000_0000_0000_0000_0000_0000_0000_0000
       + l3 * 0x1_0000_0000_0000_0000_0000_0000_0000_0000_0000_0000_0000_0000
  }

  /** `checked_add`: None exactly when the sum leaves the 256-bit range. */
  function CheckedAdd(a: U256, b: U256): (r: Option<U256>)
    ensures r.Some? <==> a + b <= U256_MAX
    ensures r.Some? ==> r.value == a + b
  {
    if a + b <= U256_MAX then Some(a + b) else None
  }

  /** `checked_sub`: None exactly when the difference would be negative. */
  function CheckedSub(a: U256, b: U256): (r: Option<U256>)
    ensures r.Some? <==> b <= a
    ensures r.Some? ==> r.value + b == a
  {
    if b <= a then Some(a - b) else None
  }

  /** `checked_mul`: None exactly when the product leaves the 256-bit range. */
  function CheckedMul(a: U256, b: U256): (r: Option<U256>)
    ensures r.Some? <==> a * b <= U256_MAX
    ensures r.Some? ==> r.value == a * b
  {
    if a * b <= U256_MAX then Some(a * b) else None
  }

  /** `checked_div`: None exactly for a zero divisor; otherwise the
      quotient rounded toward zero. */
  function CheckedDiv(a: U256, b: U256): (r: Option<U256>)
    ensures r.Some? <==> b != 0
    ensures r.Some? ==> r.value * b <= a < (r.value + 1) * b
  {
    if b == 0 then None else Some(a / b)
  }

  /** `integer_sqrt`: the largest r with r * r <= n. */
  function ISqrt(n: nat): (r: nat)
    ensures r * r <= n < (r + 1) * (r + 1)
  {
    assert n < (n + 1) * (n + 1) by {
      assert (n + 1) * (n + 1) == n * n + 2 * n + 1;
    }
    ISqrtBetween(n, 0, n + 1)
  }

  /** Bisection between a root candidate `lo` (lo * lo <= n) and a bound
      `hi` (n < hi * hi). */
  function ISqrtBetween(n: nat, lo: nat, hi: nat): (r: nat)
    requires lo < hi && lo * lo <= n < hi * hi
    ensures lo <= r < hi
    ensures r * r <= n < (r + 1) * (r + 1)
    decreases hi - lo
  {
    if lo + 1 == hi then lo
    else
      var mid := (lo + hi) / 2;
      if mid * mid <= n then ISqrtBetween(n, mid, hi) else ISqrtBetween(n, lo, mid)
  }

  /** Squaring is monotone on naturals. */
  lemma SquareMonotone(a: nat, b: nat)
    requires a <= b
    ensures a * a <= b * b
  {
    assert a * a <= a * b;
    assert a * b <= b * b;
  }

  /** The floor square root is the only r with r * r <= n < (r + 1) * (r + 1). */
  lemma ISqrtUnique(n: nat, r: nat)
    requires r * r <= n < (r + 1) * (r + 1)
    ensures ISqrt(n) == r
  {
    var s := ISqrt(n);
    if s < r {
      SquareMonotone(s + 1, r);
      assert false;
    } else if r < s {
      SquareMonotone(r + 1, s);
      assert false;
    }
  }

  /** The square root of a perfect square is its root. */
  lemma ISqrtOfSquare(k: nat)
    ensures ISqrt(k * k) == k
  {
    assert (k + 1) * (k + 1) == k * k + 2 * k + 1;
    ISqrtUnique(k * k, k);
  }

  /** The square root is monotone. */
  lemma ISqrtMonotone(m: nat, n: nat)
    requires m <= n
    ensures ISqrt(m) <= ISqrt(n)
  {
    var a, b := ISqrt(m), ISqrt(n);
    if b < a {
      SquareMonotone(b + 1, a);
      assert false;
    }
  }

  /** b^k. */
  function Pow(b: nat, k: nat): (r: nat)
    ensures b > 0 ==> r > 0
  {
    if k == 0 then 1 else b * Pow(b, k - 1)
  }

  /** b^(j + k) = b^j * b^k. */
  lemma {:induction false} PowAdd(b: nat, j: nat, k: nat)
    ensures Pow(b, j + k) == Pow(b, j) * Pow(b, k)
    decreases k
  {
    if k > 0 {
      PowAdd(b, j, k - 1);
      var x, y := Pow(b, j), Pow(b, k - 1);
      assert Pow(b, j + k) == b * (x * y);
      MulSwap(b, x, y);
    }
  }

  lemma MulSwap(a: nat, b: nat, c: nat)
    ensures a * (b * c) == b * (a * c)
  {
  }

  /** The powers of a base above 1 grow with the exponent. */
  lemma {:induction false} PowMonotone(b: nat, j: nat, k: nat)
    requires b > 0 && j <= k
    ensures Pow(b, j) <= Pow(b, k)
    decreases k
  {
    if j < k {
      PowMonotone(b, j, k - 1);
      MulAtLeast(b, Pow(b, k - 1));
    }
  }

  lemma MulAtLeast(b: nat, x: nat)
    requires b > 0
    ensures x <= b * x
  {
  }

  /** Squaring a power doubles its exponent. */
  lemma PowDouble(b: nat, k: nat, v: nat)
    requires Pow(b, k) == v
    ensures Pow(b, k + k) == v * v
  {
    PowAdd(b, k, k);
  }

  /** 64 hexadecimal digits hold exactly the U256 range. */
  lemma HexDigitsOfU256()
    ensures Pow(16, 64) == U256_MAX + 1
  {
    PowDouble(16, 1, 0x10);
    PowDouble(16, 2, 0x100);
    PowDouble(16, 4, 0x1_0000);
    PowDouble(16, 8, 0x1_0000_0000);
    PowDouble(16, 16, 0x1_0000_0000_0000_0000);
    PowDouble(16, 32, 0x1_0000_0000_0000_0000_0000_0000_0000_0000);
  }

  // ---------------------------------------------------------------------
  // Decimal strings and the uint crate's `FromStr`
  // ---------------------------------------------------------------------

  predicate IsHexDigit(c: char) {
    '0' <= c <= '9' || 'a' <= c <= 'f' || 'A' <= c <= 'F'
  }

  function HexDigitValue(c: char): (v: nat)
    requires IsHexDigit(c)
    ensures v < 16
    ensures '0' <= c <= '9' ==> v == c as int - '0' as int
  {
    if '0' <= c <= '9' then c as int - '0' as int
    else if 'a' <= c <= 'f' then c as int - 'a' as int + 10
    else c as int - 'A' as int + 10
  }

  /** The value of the digits `s`, most significant first, in `base`. */
  function DigitsValue(s: string, base: nat): nat
    requires forall i :: 0 <= i < |s| ==> IsHexDigit(s[i])
  {
    if |s| == 0 then 0
    else DigitsValue(s[..|s| - 1], base) * base + HexDigitValue(s[|s| - 1])
  }

  /** Digits of value below 16 read in base 16 stay below 16^|s|. */
  lemma {:induction false} HexValueBound(s: string)
    requires forall i :: 0 <= i < |s| ==> IsHexDigit(s[i])
    ensures DigitsValue(s, 16) < Pow(16, |s|)
    decreases |s|
  {
    if |s| > 0 {
      var prefix := s[..|s| - 1];
      HexValueBound(prefix);
      assert DigitsValue(prefix, 16) + 1 <= Pow(16, |s| - 1);
      MulMonotoneNat(16, DigitsValue(prefix, 16) + 1, Pow(16, |s| - 1));
    }
  }

  lemma MulMonotoneNat(c: nat, a: nat, b: nat)
    requires a <= b
    ensures c * a <= c * b
  {
  }

  /** `to_string` of a U256 or U512: its decimal digits, most significant
      first, without leading zeros. */
  function DecimalString(n: nat): (s: string)
    ensures |s| >= 1
    ensures forall i :: 0 <= i < |s| ==> '0' <= s[i] <= '9'
    ensures DigitsValue(s, 10) == n
  {
    var last := ['0' + ((n % 10) as char)];
    if n < 10 then last
    else
      var s := DecimalString(n / 10) + last;
      assert s[..|s| - 1] == DecimalString(n / 10);
      s
  }

  /** A number has at most k decimal digits exactly when it is below 10^k. */
  lemma {:induction false} DecimalLength(n: nat, k: nat)
    requires k >= 1
    ensures |DecimalString(n)| <= k <==> n < Pow(10, k)
    decreases n
  {
    if n < 10 {
      PowMonotone(10, 1, k);
    } else if k == 1 {
    } else {
      DecimalLength(n / 10, k - 1);
    }
  }

  /** The uint crate's `FromStr`: the string, after an optional "0x", is
      read as hexadecimal; more than 64 digits, or a character that is
      not a hex digit, is an error. */
  function ParseHexU256(s: string): (r: Option<U256>)
    ensures r.Some? <==>
              var digits := if |s| >= 2 && s[..2] == "0x" then s[2..] else s;
              |digits| <= 64 && forall i :: 0 <= i < |digits| ==> IsHexDigit(digits[i])
    ensures r.Some? ==>
              var digits := if |s| >= 2 && s[..2] == "0x" then s[2..] else s;
              (forall i :: 0 <= i < |digits| ==> IsHexDigit(digits[i]))
              && r.value == DigitsValue(digits, 16)
  {
    var digits := if |s| >= 2 && s[..2] == "0x" then s[2..] else s;
    if |digits| > 64 || exists i :: 0 <= i < |digits| && !IsHexDigit(digits[i]) then None
    else
      HexValueBound(digits);
      PowMonotone(16, |digits|, 64);
      HexDigitsOfU256();
      Some(DigitsValue(digits, 16))
  }

  /** Reading a decimal string back as hexadecimal, as
      `U256::from_str(n.to_string())` does, fails from 64 digits on and
      otherwise never gives less than `n`; it gives `n` back only for a
      single digit. */
  lemma {:induction false} HexReadingOfDecimal(n: nat)
    ensures ParseHexU256(DecimalString(n)).None? <==> |DecimalString(n)| > 64
    ensures ParseHexU256(DecimalString(n)).Some? ==>
              ParseHexU256(DecimalString(n)).value >= n
              && (ParseHexU256(DecimalString(n)).value == n <==> n < 10)
  {
    var s := DecimalString(n);
    assert |s| < 2 || s[..2][1] != 'x';
    assert forall i :: 0 <= i < |s| ==> IsHexDigit(s[i]);
    HexAtLeastDecimal(n);
  }

  /** The hexadecimal value of n's decimal digits: at least n, and more
      than n from two digits on. */
  lemma {:induction false} HexAtLeastDecimal(n: nat)
    ensures DigitsValue(DecimalString(n), 16) >= n
    ensures DigitsValue(DecimalString(n), 16) == n <==> n < 10
    decreases n
  {
    HexLastDigit(n);
    if n >= 10 {
      HexAtLeastDecimal(n / 10);
      HexDigitOutweighs(n, DigitsValue(DecimalString(n / 10), 16));
    }
  }

  /** Reading n's decimal digits in base 16: the reading of all but the
      last digit, times 16, plus the last digit. */
  lemma HexLastDigit(n: nat)
    ensures n < 10 ==> DigitsValue(DecimalString(n), 16) == n
    ensures n >= 10 ==>
              DigitsValue(DecimalString(n), 16) == DigitsValue(DecimalString(n / 10), 16) * 16 + n % 10
  {
    var s := DecimalString(n);
    assert s[..|s| - 1] == if n < 10 then [] else DecimalString(n / 10);
  }

  /** A digit shifted by 16 instead of 10 weighs more. */
  lemma HexDigitOutweighs(n: nat, high: nat)
    requires n >= 10 && high >= n / 10
    ensures high * 16 + n % 10 > n
  {
    var q := n / 10;
    assert high * 16 >= q * 16 by { MulMonotoneNat(16, q, high); }
  }
}

=== FILE: helper_data.dfy ===
/** Fixed-point constants of the synthetic helper crate
    (synthetic_helper_crate/src/data.rs). Each is declared, as in the
    source, by its four 64-bit limbs; the lemmas below state the decimal
    values and the relations the source's comments document. */
module HelperData {
  import opened CasperTypes

  const DECIMALS: U256 := FromLimbs(18, 0, 0, 0)
  const LIMIT_AMOUNT: U256 := FromLimbs(13070572018536022016, 10549268516463523069, 293873587705, 0)

  const TRADING_FEE: U256 := FromLimbs(997500000000, 0, 0, 0)
  const TRADING_FEE_QUOTIENT: U256 := FromLimbs(1002506265664, 0, 0, 0)

  const EQUALIZE_SIZE_VALUE: U256 := FromLimbs(100000000, 0, 0, 0)
  const ARBITRAGE_CONDITION: U256 := FromLimbs(1000001, 0, 0, 0)
  const TRADING_FEE_CONDITION: U256 := FromLimbs(100000001, 0, 0, 0)
  const LIQUIDITY_PERCENTAGE_CORRECTION: U256 := FromLimbs(995000, 0, 0, 0)

  const PRECISION_POINTS: U256 := FromLimbs(1000000, 0, 0, 0)
  const PRECISION_POINTS_POWER2: U256 := FromLimbs(1000000000000, 0, 0, 0)
  const PRECISION_POINTS_POWER3: U256 := FromLimbs(1000000000000000000, 0, 0, 0)
  const PRECISION_POINTS_POWER4: U256 := FromLimbs(2003764205206896640, 54210, 0, 0)
  const PRECISION_POINTS_POWER5: U256 := FromLimbs(5076944270305263616, 54210108624, 0, 0)

  const PRECISION_DIFF: U256 := FromLimbs(2500000000, 0, 0, 0)
  const PRECISION_PROD: U256 := FromLimbs(10760958229705916416, 54074, 0, 0)

  const PRECISION_FEES_PROD: U256 := FromLimbs(997493734335680000, 0, 0, 0)

  /** The decimal values of the precision constants. */
  lemma PrecisionValues()
    ensures PRECISION_POINTS == 1_000_000
    ensures PRECISION_POINTS_POWER2 == 1_000_000_000_000
    ensures PRECISION_POINTS_POWER3 == 1_000_000_000_000_000_000
    ensures PRECISION_POINTS_POWER4 == 1_000_000_000_000_000_000_000_000
    ensures PRECISION_POINTS_POWER5 == 1_000_000_000_000_000_000_000_000_000_000
  {
  }

  /** The precision points are 10^6 and each power is the previous one
      times PRECISION_POINTS. */
  lemma PrecisionPowers()
    ensures PRECISION_POINTS == Pow(10, 6)
    ensures PRECISION_POINTS_POWER2 == PRECISION_POINTS * PRECISION_POINTS == Pow(10, 12)
    ensures PRECISION_POINTS_POWER3 == PRECISION_POINTS_POWER2 * PRECISION_POINTS == Pow(10, 18)
    ensures PRECISION_POINTS_POWER4 == PRECISION_POINTS_POWER3 * PRECISION_POINTS == Pow(10, 24)
    ensures PRECISION_POINTS_POWER5 == PRECISION_POINTS_POWER4 * PRECISION_POINTS == Pow(10, 30)
  {
    assert Pow(10, 6) == 1000000 by { PowTenUnfold(6); }
    PowAdd(10, 6, 6);
    PowAdd(10, 12, 6);
    PowAdd(10, 18, 6);
    PowAdd(10, 24, 6);
  }

  /** 10^n for n up to 6. */
  lemma PowTenUnfold(n: nat)
    requires n <= 6
    ensures Pow(10, n) == if n == 0 then 1 else if n == 1 then 10 else if n == 2 then 100
                          else if n == 3 then 1000 else if n == 4 then 10000
                          else if n == 5 then 100000 else 1000000
  {
    if n > 0 { PowTenUnfold(n - 1); }
  }

  /** The LIMIT_AMOUNT limbs encode 10^50. */
  lemma LimitAmountValue()
    ensures LIMIT_AMOUNT == Pow(10, 50)
  {
    LimitAmountDecimal();
    PowTenFifty();
  }

  lemma LimitAmountDecimal()
    ensures LIMIT_AMOUNT == 100_000000_000000_000000_000000_000000_000000_000000_000000
  {
  }

  lemma PowTenFifty()
    ensures Pow(10, 50) == 100_000000_000000_000000_000000_000000_000000_000000_000000
  {
    assert Pow(10, 6) == 1_000000 by { PowTenUnfold(6); }
    PowDouble(10, 6, 1_000000);
    PowDouble(10, 12, 1_000000_000000);
    PowDouble(10, 24, 1_000000_000000_000000_000000);
    assert Pow(10, 2) == 100 by { PowTenUnfold(2); }
    PowAdd(10, 48, 2);
  }

  /** The decimal values of the fee and condition constants. */
  lemma FeeValues()
    ensures TRADING_FEE == 997_500_000_000
    ensures TRADING_FEE_QUOTIENT == 1_002_506_265_664
    ensures EQUALIZE_SIZE_VALUE == 100_000_000
    ensures ARBITRAGE_CONDITION == 1_000_001
    ensures TRADING_FEE_CONDITION == 100_000_001
    ensures LIQUIDITY_PERCENTAGE_CORRECTION == 995_000
    ensures PRECISION_POINTS == 1_000_000
  {
  }

  /** The derived constants agree with the formulas in their comments. */
  lemma DerivedConstants()
    ensures PRECISION_DIFF == PRECISION_POINTS_POWER2 - TRADING_FEE == 2_500_000_000
    ensures PRECISION_PROD == PRECISION_POINTS_POWER2 * TRADING_FEE
    ensures PRECISION_FEES_PROD == TRADING_FEE_QUOTIENT * LIQUIDITY_PERCENTAGE_CORRECTION
    ensures ARBITRAGE_CONDITION == PRECISION_POINTS + 1
    ensures TRADING_FEE_CONDITION == EQUALIZE_SIZE_VALUE + 1
    ensures DECIMALS == 18
  {
  }
}

=== FILE: liquidity_transformer.dfy ===
/** The reservation ledger of the liquidity transformer
    (liquidity_transformer/liquidity_transformer_crate/src/liquidity_transformer.rs).

    Investors reserve tokens with cspr on days 1 to INVESTMENT_DAYS;
    after that window the liquidity is forwarded once, after which each
    investor collects the purchased tokens. If the forwarding never
    happens, investors can ask for a refund after day
    INVESTMENT_DAYS + 10. The current stakeable day, the caller and the
    results of calls into other contracts are inputs; purse transfers are
    not modelled. A revert leaves every dictionary and the event log as
    they were. */
module LiquidityTransformer {
  import opened Wrappers
  import opened CasperTypes
  import opened LtData

  /** The contract's user errors, a failed `unwrap_or_revert()` and a
      panic (an unchecked U256 `+` that overflows, or `as_u128` on a value
      that does not fit). */
  datatype LtError =
    | ReserveWiseMaxSupplyReached
    | ReserveWrongInvestmentDay
    | ReserveWiseMinInvest
    | ReserverWiseWrongMode
    | NotKeeper
    | Swapped
    | RefundNotPossible
    | InvestmentBelowMinimum
    | OngoingInvestmentPhase
    | ForwardLiquidityFirst
    | ApiNone
    | Panic

  datatype LtEvent =
    | WiseReservation(senderAddress: Key, investmentAmount: U256, tokenAmount: U256,
                      currentStakeableDay: nat, investmentMode: U8)
    | UniswapSwapResult(amountTokenA: U256, amountTokenB: U256, liquidity: U256)
    | CashBackIssued(investorAddress: Key, senderValue: U256, cashBackAmount: U256)
    | RefundIssued(investorAddress: Key, refundAmount: U256)

  /** The variant of an event, without its fields. */
  datatype LtEventKind = WiseReservationKind | UniswapSwapResultKind | CashBackIssuedKind | RefundIssuedKind

  function KindOf(e: LtEvent): LtEventKind {
    match e
    case WiseReservation(_, _, _, _, _) => WiseReservationKind
    case UniswapSwapResult(_, _, _) => UniswapSwapResultKind
    case CashBackIssued(_, _, _) => CashBackIssuedKind
    case RefundIssued(_, _) => RefundIssuedKind
  }

  function KindName(k: LtEventKind): string {
    match k
    case WiseReservationKind => "wiseReservation"
    case UniswapSwapResultKind => "uniswapSwapResult"
    case CashBackIssuedKind => "cashBackIssued"
    case RefundIssuedKind => "refundIssued"
  }

  /** `type_name`: the event's name, a function of its variant alone. */
  function TypeName(e: LtEvent): (name: string)
    ensures name == KindName(KindOf(e))
  {
    match e
    case WiseReservation(_, _, _, _, _) => "wiseReservation"
    case UniswapSwapResult(_, _, _) => "uniswapSwapResult"
    case CashBackIssued(_, _, _) => "cashBackIssued"
    case RefundIssued(_, _) => "refundIssued"
  }

  /** The variant a name stands for, if any. */
  function KindOfName(name: string): (k: Option<LtEventKind>)
    ensures k.Some? ==> KindName(k.value) == name
  {
    if name == "wiseReservation" then Some(WiseReservationKind)
    else if name == "uniswapSwapResult" then Some(UniswapSwapResultKind)
    else if name == "cashBackIssued" then Some(CashBackIssuedKind)
    else if name == "refundIssued" then Some(RefundIssuedKind)
    else None
  }

  /** The name of an event gives back its variant. */
  lemma TypeNameRoundTrip(e: LtEvent)
    ensures KindOfName(TypeName(e)) == Some(KindOf(e))
  {
  }

  /** Two events share a name exactly when they are of the same variant. */
  lemma TypeNameDistinct(e1: LtEvent, e2: LtEvent)
    ensures TypeName(e1) == TypeName(e2) <==> KindOf(e1) == KindOf(e2)
  {
    TypeNameRoundTrip(e1);
    TypeNameRoundTrip(e2);
  }

  // ---------------------------------------------------------------------
  // Pricing
  // ---------------------------------------------------------------------

  /** What a reservation buys: tokens, and the part of the value that is
      sent back because the supply ran out. */
  datatype Purchase = Purchase(tokens: U256, returnAmount: U256)

  /** `value / TOKEN_COST` whole units of 10^9 tokens. */
  function TokensFor(value: nat): nat {
    value / 757_575 * 1_000_000_000
  }

  /** `_get_token_amount`. Below the cap the value buys TokensFor(value)
      and nothing is returned. A reservation crossing the cap buys exactly
      the rest of the supply and gets back what it paid beyond the rest of
      MAX_INVEST; `as_u128` panics on totals beyond 128 bits and the
      checked subtractions revert. */
  function GetTokenAmount(contributed: U256, transfer: U256, value: U256): (r: Result<Purchase, LtError>)
    ensures TokensFor(value) > U256_MAX || transfer + TokensFor(value) > U256_MAX ==> r == Err(ApiNone)
    ensures r.Ok? && transfer + TokensFor(value) <= MAX_SUPPLY ==> r.value == Purchase(TokensFor(value), 0)
    ensures r.Ok? && transfer + TokensFor(value) > MAX_SUPPLY ==>
              transfer + r.value.tokens == MAX_SUPPLY
              && contributed <= MAX_INVEST
              && r.value.returnAmount == value - (MAX_INVEST - contributed)
    ensures r.Ok? ==> transfer + r.value.tokens <= MAX_SUPPLY && r.value.returnAmount <= value
    ensures r.Err? <==>
              TokensFor(value) > U256_MAX || transfer + TokensFor(value) > U256_MAX
              || (transfer + TokensFor(value) > MAX_SUPPLY
                  && (transfer > MAX_SUPPLY || contributed > MAX_INVEST
                      || value < MAX_INVEST - contributed))
    ensures r == Err(Panic) <==>
              TokensFor(value) <= U256_MAX && MAX_SUPPLY < transfer + TokensFor(value) <= U256_MAX
              && (transfer >= U128_LIMIT || (transfer <= MAX_SUPPLY && contributed >= U128_LIMIT))
  {
    ConstantValues();
    // TOKEN_COST is not zero, so the checked division never fails.
    var units: U256 := value / TOKEN_COST;
    var tokens :- Checked(CheckedMul(units, 1_000_000_000));
    var newSupply :- Checked(CheckedAdd(transfer, tokens));
    if newSupply <= MAX_SUPPLY then Ok(Purchase(tokens, 0))
    else if transfer >= U128_LIMIT then Err(Panic)
    else if transfer > MAX_SUPPLY then Err(ApiNone)
    else if contributed >= U128_LIMIT then Err(Panic)
    else if contributed > MAX_INVEST then Err(ApiNone)
    else if value < MAX_INVEST - contributed then Err(ApiNone)
    else Ok(Purchase(MAX_SUPPLY - transfer, value - (MAX_INVEST - contributed)))
  }

  /** `unwrap_or_revert()` on a checked U256 operation. */
  function Checked(o: Option<U256>): (r: Result<U256, LtError>)
    ensures o.None? <==> r == Err(ApiNone)
    ensures o.Some? ==> r == Ok(o.value)
  {
    match o
    case Some(v) => Ok(v)
    case None => Err(ApiNone)
  }

  /** The purchases of the three reservations in the token flow test:
      2000, 4000 and 6000 cspr in turn. */
  lemma FlowTestPurchases()
    ensures GetTokenAmount(0, 0, 2_000_000_000_000)
            == Ok(Purchase(2_640_002_000_000_000, 0))
    ensures GetTokenAmount(2_000_000_000_000, 2_640_002_000_000_000, 4_000_000_000_000)
            == Ok(Purchase(5_280_005_000_000_000, 0))
    ensures GetTokenAmount(6_000_000_000_000, 7_920_007_000_000_000, 6_000_000_000_000)
            == Ok(Purchase(7_920_007_000_000_000, 0))
  {
    ConstantValues();
  }

  /** A reservation that crosses the cap reverts when its value is below
      what is left of MAX_INVEST: as the first reservation,
      199_999_800_757_575 buys more than the whole supply yet is less
      than MAX_INVEST. */
  lemma CapCrossingBelowBudgetReverts()
    ensures TokensFor(199_999_800_757_575) > MAX_SUPPLY
    ensures GetTokenAmount(0, 0, 199_999_800_757_575) == Err(ApiNone)
  {
    ConstantValues();
  }

  /** The cash-back of `_reserve_wise`: paid in mode 0 while the total paid
      is below REFUND_CAP and part of the value is kept. It is 1% of the
      kept value, cut down so that the total reaches REFUND_CAP at most. */
  function CashBack(mode: U8, cashBackTotal: U256, value: U256, returnAmount: U256): (r: Option<U256>)
    ensures r.Some? <==> mode == 0 && cashBackTotal < REFUND_CAP && returnAmount < value
    ensures r.Some? ==> cashBackTotal + r.value <= REFUND_CAP
    ensures r.Some? ==> r.value <= (value - returnAmount) / 100
    ensures r.Some? ==> r.value == (value - returnAmount) / 100 || cashBackTotal + r.value == REFUND_CAP
  {
    if mode == 0 && cashBackTotal < REFUND_CAP && returnAmount < value then
      var amount := (value - returnAmount) / 100;
      // The checked additions cannot overflow: the total is below REFUND_CAP.
      if cashBackTotal + amount >= REFUND_CAP then Some(REFUND_CAP - cashBackTotal)
      else Some(amount)
    else None
  }

  /** The events a reservation emits after updating the ledger. */
  function ReservationEvents(sender: Key, value: U256, purchase: Purchase, cashBack: Option<U256>,
                             day: nat, mode: U8): (events: seq<LtEvent>)
    ensures |events| >= 1 && events[|events| - 1] == WiseReservation(sender, value, purchase.tokens, day, mode)
    ensures cashBack.Some? <==> CashBackIssued(sender, value, if cashBack.Some? then cashBack.value else 0) in events
    ensures purchase.returnAmount > 0 <==> RefundIssued(sender, purchase.returnAmount) in events
  {
    (if cashBack.Some? then [CashBackIssued(sender, value, cashBack.value)] else [])
    + (if purchase.returnAmount > 0 then [RefundIssued(sender, purchase.returnAmount)] else [])
    + [WiseReservation(sender, value, purchase.tokens, day, mode)]
  }

  /** The reverts of `_reserve_wise`, in its order, on the values it
      reads: a mode of 6 or more; a new investor when the investor count
      cannot grow (an unchecked `+`); the reverts of GetTokenAmount; then
      the unchecked additions to the contributed total, to the investor's
      balance and to the investor's tokens. Otherwise the purchase. */
  function ReserveCheck(mode: U8, balance: U256, count: U256, contributed: U256, transfer: U256,
                        purchased: U256, value: U256): (r: Result<Purchase, LtError>)
    ensures mode >= 6 ==> r == Err(ReserverWiseWrongMode)
    ensures mode < 6 && balance == 0 && count == U256_MAX ==> r == Err(Panic)
    ensures r.Ok? <==>
              mode < 6 && (balance == 0 ==> count < U256_MAX)
              && GetTokenAmount(contributed, transfer, value).Ok?
              && contributed + value <= U256_MAX && balance + value <= U256_MAX
              && purchased + GetTokenAmount(contributed, transfer, value).value.tokens <= U256_MAX
    ensures r.Ok? ==> r.value == GetTokenAmount(contributed, transfer, value).value
                      && transfer + r.value.tokens <= MAX_SUPPLY
  {
    if mode >= 6 then Err(ReserverWiseWrongMode)
    else if balance == 0 && count + 1 > U256_MAX then Err(Panic)
    else
      var purchase :- GetTokenAmount(contributed, transfer, value);
      if contributed + value > U256_MAX then Err(Panic)
      // transfer + tokens <= MAX_SUPPLY (GetTokenAmount), so that sum fits.
      else if balance + value > U256_MAX then Err(Panic)
      else if purchased + purchase.tokens > U256_MAX then Err(Panic)
      else Ok(purchase)
  }

  // ---------------------------------------------------------------------
  // The contract
  // ---------------------------------------------------------------------

  class LiquidityTransformer {
    const globals: Globals
    const investorBalance: AmountDict
    const purchasedTokens: AmountDict
    const uniqueInvestors: UniqueInvestors
    const namedKeys: NamedKeys
    var events: seq<LtEvent>

    /** The two per-investor dictionaries are distinct, the cash-back paid
        stays within REFUND_CAP and the tokens sold within MAX_SUPPLY. */
    predicate Valid()
      reads this, globals
    {
      investorBalance != purchasedTokens
      && globals.GetNumber(CASH_BACK_TOTAL) <= REFUND_CAP
      && globals.GetNumber(TOTAL_TRANSFER_TOKENS) <= MAX_SUPPLY
    }

    /** `init`: the addresses are stored, the caller becomes the settings
        keeper and every dictionary starts empty. */
    constructor (caller: Key, wise: Key, scspr: Key, pair: Key, router: Key, wcspr: Key)
      ensures Valid()
      ensures globals.numbers == map[] && globals.flags == map[]
      ensures investorBalance.entries == map[] && purchasedTokens.entries == map[]
      ensures uniqueInvestors.entries == map[] && events == []
      ensures namedKeys.Get(SETTINGS_KEEPER) == caller && namedKeys.Get(WCSPR) == wcspr
      ensures namedKeys.Get(WISE_CONTRACT) == wise && namedKeys.Get(SCSPR) == scspr
      ensures namedKeys.Get(UNISWAP_PAIR) == pair && namedKeys.Get(UNISWAP_ROUTER) == router
      ensures fresh(globals) && fresh(investorBalance) && fresh(purchasedTokens)
      ensures fresh(uniqueInvestors) && fresh(namedKeys)
    {
      globals := new Globals();
      investorBalance := new AmountDict();
      purchasedTokens := new AmountDict();
      uniqueInvestors := new UniqueInvestors();
      var keys := new NamedKeys();
      keys.keys := map[WISE_CONTRACT := wise, SCSPR := scspr, UNISWAP_PAIR := pair,
                       UNISWAP_ROUTER := router, WCSPR := wcspr, SETTINGS_KEEPER := caller];
      namedKeys := keys;
      events := [];
    }

    /** `only_keeper`. */
    function OnlyKeeper(caller: Key): (r: Outcome<LtError>)
      reads namedKeys
      ensures r == Pass <==> caller == namedKeys.Get(SETTINGS_KEEPER)
      ensures r.Fail? ==> r.error == NotKeeper
    {
      if caller != namedKeys.Get(SETTINGS_KEEPER) then Fail(NotKeeper) else Pass
    }

    /** `prepare_path`: from the given token to wcspr. */
    function PreparePath(tokenAddress: Key): (path: seq<Key>)
      reads namedKeys
      ensures |path| == 2 && path[0] == tokenAddress && path[1] == namedKeys.Get(WCSPR)
    {
      [tokenAddress, namedKeys.Get(WCSPR)]
    }

    /** `set_settings`: the keeper re-points the wise token, the pair and
        the synthetic token. */
    method SetSettings(caller: Key, wise: Key, pair: Key, scspr: Key) returns (r: Outcome<LtError>)
      modifies namedKeys
      ensures r == old(OnlyKeeper(caller))
      ensures r == Pass ==> namedKeys.keys == old(namedKeys.keys)[WISE_CONTRACT := wise][SCSPR := scspr][UNISWAP_PAIR := pair]
      ensures r.Fail? ==> namedKeys.keys == old(namedKeys.keys)
    {
      r := OnlyKeeper(caller);
      if r.Fail? {
        return;
      }
      namedKeys.Set(WISE_CONTRACT, wise);
      namedKeys.Set(SCSPR, scspr);
      namedKeys.Set(UNISWAP_PAIR, pair);
    }

    /** `renounce_keeper`: the keeper becomes the zero address, so from
        then on only a caller with the zero address could pass
        `only_keeper`. */
    method RenounceKeeper(caller: Key) returns (r: Outcome<LtError>)
      modifies namedKeys
      ensures r == old(OnlyKeeper(caller))
      ensures r == Pass ==> namedKeys.Get(SETTINGS_KEEPER) == ZERO_ADDRESS
      ensures r == Pass ==> forall anyone: Key :: OnlyKeeper(anyone) == Pass <==> anyone == ZERO_ADDRESS
      ensures r == Pass ==> namedKeys.keys == old(namedKeys.keys)[SETTINGS_KEEPER := ZERO_ADDRESS]
      ensures r.Fail? ==> namedKeys.keys == old(namedKeys.keys)
    {
      r := OnlyKeeper(caller);
      if r.Fail? {
        return;
      }
      namedKeys.Set(SETTINGS_KEEPER, ZERO_ADDRESS);
    }

    /** `reserve_wise`: a reservation with cspr, open on days 1 to
        INVESTMENT_DAYS while tokens are left, for at least TOKEN_COST. */
    method ReserveWise(caller: Key, investmentMode: U8, msgValue: U256, day: nat) returns (r: Outcome<LtError>)
      requires Valid()
      modifies this, globals, investorBalance, purchasedTokens, uniqueInvestors
      ensures Valid()
      ensures day == 0 || day > INVESTMENT_DAYS ==> r == Fail(ReserveWrongInvestmentDay)
      ensures 0 < day <= INVESTMENT_DAYS && old(globals.GetNumber(TOTAL_TRANSFER_TOKENS)) >= MAX_SUPPLY
              ==> r == Fail(ReserveWiseMaxSupplyReached)
      ensures (0 < day <= INVESTMENT_DAYS && old(globals.GetNumber(TOTAL_TRANSFER_TOKENS)) < MAX_SUPPLY
               && msgValue < TOKEN_COST) ==> r == Fail(ReserveWiseMinInvest)
      ensures r == Pass <==>
                0 < day <= INVESTMENT_DAYS && old(globals.GetNumber(TOTAL_TRANSFER_TOKENS)) < MAX_SUPPLY
                && msgValue >= TOKEN_COST && old(ReserveCheckFor(caller, msgValue, investmentMode)).Ok?
      ensures 0 < day <= INVESTMENT_DAYS && old(globals.GetNumber(TOTAL_TRANSFER_TOKENS)) < MAX_SUPPLY
              && msgValue >= TOKEN_COST && old(ReserveCheckFor(caller, msgValue, investmentMode)).Err?
              ==> r == Fail(old(ReserveCheckFor(caller, msgValue, investmentMode)).error)
      ensures r == Pass ==>
                Recorded(caller, msgValue, investmentMode, day, old(ReserveCheckFor(caller, msgValue, investmentMode)).value)
      ensures r.Fail? ==> Unchanged()
    {
      if day == 0 || day > INVESTMENT_DAYS {
        return Fail(ReserveWrongInvestmentDay);
      }
      if globals.GetNumber(TOTAL_TRANSFER_TOKENS) >= MAX_SUPPLY {
        return Fail(ReserveWiseMaxSupplyReached);
      }
      if msgValue < TOKEN_COST {
        return Fail(ReserveWiseMinInvest);
      }
      r := Reserve(caller, msgValue, investmentMode, day);
    }

    /** `reserve_wise_with_token`: the same gates, then the tokens are
        swapped to cspr by the router; `swappedValue` is the cspr the swap
        yields. */
    method ReserveWiseWithToken(caller: Key, investmentMode: U8, swappedValue: U256, day: nat)
      returns (r: Outcome<LtError>)
      requires Valid()
      modifies this, globals, investorBalance, purchasedTokens, uniqueInvestors
      ensures Valid()
      ensures day == 0 || day > INVESTMENT_DAYS ==> r == Fail(ReserveWrongInvestmentDay)
      ensures 0 < day <= INVESTMENT_DAYS && old(globals.GetNumber(TOTAL_TRANSFER_TOKENS)) >= MAX_SUPPLY
              ==> r == Fail(ReserveWiseMaxSupplyReached)
      ensures (0 < day <= INVESTMENT_DAYS && old(globals.GetNumber(TOTAL_TRANSFER_TOKENS)) < MAX_SUPPLY
               && swappedValue < TOKEN_COST) ==> r == Fail(InvestmentBelowMinimum)
      ensures r == Pass <==>
                0 < day <= INVESTMENT_DAYS && old(globals.GetNumber(TOTAL_TRANSFER_TOKENS)) < MAX_SUPPLY
                && swappedValue >= TOKEN_COST && old(ReserveCheckFor(caller, swappedValue, investmentMode)).Ok?
      ensures 0 < day <= INVESTMENT_DAYS && old(globals.GetNumber(TOTAL_TRANSFER_TOKENS)) < MAX_SUPPLY
              && swappedValue >= TOKEN_COST && old(ReserveCheckFor(caller, swappedValue, investmentMode)).Err?
              ==> r == Fail(old(ReserveCheckFor(caller, swappedValue, investmentMode)).error)
      ensures r == Pass ==>
                Recorded(caller, swappedValue, investmentMode, day,
                         old(ReserveCheckFor(caller, swappedValue, investmentMode)).value)
      ensures r.Fail? ==> Unchanged()
    {
      if day == 0 || day > INVESTMENT_DAYS {
        return Fail(ReserveWrongInvestmentDay);
      }
      if globals.GetNumber(TOTAL_TRANSFER_TOKENS) >= MAX_SUPPLY {
        return Fail(ReserveWiseMaxSupplyReached);
      }
      if swappedValue < TOKEN_COST {
        return Fail(InvestmentBelowMinimum);
      }
      r := Reserve(caller, swappedValue, investmentMode, day);
    }

    /** The ledger as it stood at the start of the call. */
    twostate predicate Unchanged()
      reads this, globals, investorBalance, purchasedTokens, uniqueInvestors
    {
      globals.numbers == old(globals.numbers) && globals.flags == old(globals.flags)
      && investorBalance.entries == old(investorBalance.entries)
      && purchasedTokens.entries == old(purchasedTokens.entries)
      && uniqueInvestors.entries == old(uniqueInvestors.entries)
      && events == old(events)
    }

    /** The ledger after `_reserve_wise` recorded `purchase` for a
        reservation of `value` by `sender`: the contributed total and the
        investor's balance grow by the value, the tokens sold and the
        investor's tokens by the tokens bought, a new investor (zero
        balance) is stored at index INVESTOR_COUNT and the count goes up
        by one, the cash-back is added to its total, and the events are
        appended. Nothing else changes: every other number, every flag and
        every other investor's entries stay as they were. */
    twostate predicate Recorded(sender: Key, value: U256, mode: U8, day: nat, purchase: Purchase)
      reads this, globals, investorBalance, purchasedTokens, uniqueInvestors
    {
      var balance := old(investorBalance.Get(sender));
      var count := old(globals.GetNumber(INVESTOR_COUNT));
      var cashBack := CashBack(mode, old(globals.GetNumber(CASH_BACK_TOTAL)), value, purchase.returnAmount);
      && globals.GetNumber(TOTAL_CSPR_CONTRIBUTED) == old(globals.GetNumber(TOTAL_CSPR_CONTRIBUTED)) + value
      && globals.GetNumber(TOTAL_TRANSFER_TOKENS) == old(globals.GetNumber(TOTAL_TRANSFER_TOKENS)) + purchase.tokens
      && investorBalance.Get(sender) == balance + value
      && investorBalance.entries - {sender} == old(investorBalance.entries) - {sender}
      && purchasedTokens.Get(sender) == old(purchasedTokens.Get(sender)) + purchase.tokens
      && purchasedTokens.entries - {sender} == old(purchasedTokens.entries) - {sender}
      && (balance == 0 ==> globals.GetNumber(INVESTOR_COUNT) == count + 1
                           && uniqueInvestors.entries == old(uniqueInvestors.entries)[count := sender])
      && (balance != 0 ==> globals.GetNumber(INVESTOR_COUNT) == count
                           && uniqueInvestors.entries == old(uniqueInvestors.entries))
      && globals.GetNumber(CASH_BACK_TOTAL)
         == old(globals.GetNumber(CASH_BACK_TOTAL)) + (if cashBack.Some? then cashBack.value else 0)
      && globals.numbers - {TOTAL_CSPR_CONTRIBUTED, TOTAL_TRANSFER_TOKENS, INVESTOR_COUNT, CASH_BACK_TOTAL}
         == old(globals.numbers) - {TOTAL_CSPR_CONTRIBUTED, TOTAL_TRANSFER_TOKENS, INVESTOR_COUNT, CASH_BACK_TOTAL}
      && globals.flags == old(globals.flags)
      && events == old(events) + ReservationEvents(sender, value, purchase, cashBack, day, mode)
    }

    /** What `_reserve_wise` decides for `sender` before it writes: the
        purchase, or the error that reverts it. */
    function ReserveCheckFor(sender: Key, value: U256, mode: U8): Result<Purchase, LtError>
      reads this, globals, investorBalance, purchasedTokens
    {
      ReserveCheck(mode, investorBalance.Get(sender), globals.GetNumber(INVESTOR_COUNT),
                   globals.GetNumber(TOTAL_CSPR_CONTRIBUTED), globals.GetNumber(TOTAL_TRANSFER_TOKENS),
                   purchasedTokens.Get(sender), value)
    }

    /** `_reserve_wise`: records a reservation of `value` by `sender`.
        A new investor (zero balance) gets the next index; the totals and
        the investor's balance and tokens grow by the value and by the
        tokens bought; cash-back is added to its total. It reverts exactly
        when ReserveCheck says so. */
    method Reserve(sender: Key, value: U256, mode: U8, day: nat) returns (r: Outcome<LtError>)
      requires Valid()
      modifies this, globals, investorBalance, purchasedTokens, uniqueInvestors
      ensures Valid()
      ensures r.Fail? <==> old(ReserveCheckFor(sender, value, mode)).Err?
      ensures r.Fail? ==> r.error == old(ReserveCheckFor(sender, value, mode)).error && Unchanged()
      ensures r == Pass ==> Recorded(sender, value, mode, day, old(ReserveCheckFor(sender, value, mode)).value)
    {
      var check := ReserveCheck(mode, investorBalance.Get(sender), globals.GetNumber(INVESTOR_COUNT),
                                globals.GetNumber(TOTAL_CSPR_CONTRIBUTED), globals.GetNumber(TOTAL_TRANSFER_TOKENS),
                                purchasedTokens.Get(sender), value);
      if check.Err? {
        return Fail(check.error);
      }
      Record(sender, value, mode, day, check.value);
      r := Pass;
    }

    /** The writes of `_reserve_wise` once its checks have passed. */
    method Record(sender: Key, value: U256, mode: U8, day: nat, purchase: Purchase)
      requires Valid()
      requires investorBalance.Get(sender) == 0 ==> globals.GetNumber(INVESTOR_COUNT) < U256_MAX
      requires globals.GetNumber(TOTAL_CSPR_CONTRIBUTED) + value <= U256_MAX
      requires globals.GetNumber(TOTAL_TRANSFER_TOKENS) + purchase.tokens <= MAX_SUPPLY
      requires investorBalance.Get(sender) + value <= U256_MAX
      requires purchasedTokens.Get(sender) + purchase.tokens <= U256_MAX
      modifies this, globals, investorBalance, purchasedTokens, uniqueInvestors
      ensures Valid()
      ensures Recorded(sender, value, mode, day, purchase)
    {
      GlobalNamesDistinct();
      ghost var written := {TOTAL_CSPR_CONTRIBUTED, TOTAL_TRANSFER_TOKENS, INVESTOR_COUNT, CASH_BACK_TOTAL};
      ghost var before := globals.numbers;
      RecordInvestor(sender, value, purchase.tokens);
      ghost var between := globals.numbers;
      assert between - written == before - written;
      var cashBack := RecordTotals(value, mode, purchase);
      AgreeOutsideWider(globals.numbers, between,
                        {TOTAL_CSPR_CONTRIBUTED, TOTAL_TRANSFER_TOKENS, CASH_BACK_TOTAL}, written);
      events := events + ReservationEvents(sender, value, purchase, cashBack, day, mode);
    }

    /** The counter writes of `_reserve_wise`: the cspr contributed and
        the tokens sold grow, and so does the cash-back total when a cash
        back is paid; the investor count, every other number and the
        flags stay. */
    method RecordTotals(value: U256, mode: U8, purchase: Purchase) returns (cashBack: Option<U256>)
      requires globals.GetNumber(TOTAL_CSPR_CONTRIBUTED) + value <= U256_MAX
      requires globals.GetNumber(TOTAL_TRANSFER_TOKENS) + purchase.tokens <= MAX_SUPPLY
      modifies globals
      ensures cashBack == CashBack(mode, old(globals.GetNumber(CASH_BACK_TOTAL)), value, purchase.returnAmount)
      ensures globals.GetNumber(TOTAL_CSPR_CONTRIBUTED) == old(globals.GetNumber(TOTAL_CSPR_CONTRIBUTED)) + value
      ensures globals.GetNumber(TOTAL_TRANSFER_TOKENS) == old(globals.GetNumber(TOTAL_TRANSFER_TOKENS)) + purchase.tokens
      ensures globals.GetNumber(CASH_BACK_TOTAL)
              == old(globals.GetNumber(CASH_BACK_TOTAL)) + (if cashBack.Some? then cashBack.value else 0)
      ensures globals.GetNumber(INVESTOR_COUNT) == old(globals.GetNumber(INVESTOR_COUNT))
      ensures globals.numbers - {TOTAL_CSPR_CONTRIBUTED, TOTAL_TRANSFER_TOKENS, CASH_BACK_TOTAL}
              == old(globals.numbers) - {TOTAL_CSPR_CONTRIBUTED, TOTAL_TRANSFER_TOKENS, CASH_BACK_TOTAL}
      ensures globals.flags == old(globals.flags)
    {
      GlobalNamesDistinct();
      var contributed := globals.GetNumber(TOTAL_CSPR_CONTRIBUTED);
      globals.SetNumber(TOTAL_CSPR_CONTRIBUTED, contributed + value);
      var transfer := globals.GetNumber(TOTAL_TRANSFER_TOKENS);
      globals.SetNumber(TOTAL_TRANSFER_TOKENS, transfer + purchase.tokens);
      var cashBackTotal := globals.GetNumber(CASH_BACK_TOTAL);
      cashBack := CashBack(mode, cashBackTotal, value, purchase.returnAmount);
      if cashBack.Some? {
        globals.SetNumber(CASH_BACK_TOTAL, cashBackTotal + cashBack.value);
      }
    }

    /** The per-investor writes of `_reserve_wise`: a new investor (zero
        balance) is stored at index INVESTOR_COUNT and the count goes up by
        one; the investor's balance and tokens grow. */
    method RecordInvestor(sender: Key, value: U256, tokens: U256)
      requires investorBalance != purchasedTokens
      requires investorBalance.Get(sender) == 0 ==> globals.GetNumber(INVESTOR_COUNT) < U256_MAX
      requires investorBalance.Get(sender) + value <= U256_MAX
      requires purchasedTokens.Get(sender) + tokens <= U256_MAX
      modifies globals, investorBalance, purchasedTokens, uniqueInvestors
      ensures investorBalance.Get(sender) == old(investorBalance.Get(sender)) + value
      ensures investorBalance.entries - {sender} == old(investorBalance.entries) - {sender}
      ensures purchasedTokens.Get(sender) == old(purchasedTokens.Get(sender)) + tokens
      ensures purchasedTokens.entries - {sender} == old(purchasedTokens.entries) - {sender}
      ensures old(investorBalance.Get(sender)) == 0 ==>
                globals.numbers == old(globals.numbers)[INVESTOR_COUNT := old(globals.GetNumber(INVESTOR_COUNT)) + 1]
                && uniqueInvestors.entries == old(uniqueInvestors.entries)[old(globals.GetNumber(INVESTOR_COUNT)) := sender]
      ensures old(investorBalance.Get(sender)) != 0 ==>
                globals.numbers == old(globals.numbers) && uniqueInvestors.entries == old(uniqueInvestors.entries)
      ensures globals.flags == old(globals.flags)
    {
      var balance := investorBalance.Get(sender);
      var purchased := purchasedTokens.Get(sender);
      if balance == 0 {
        var count := globals.GetNumber(INVESTOR_COUNT);
        uniqueInvestors.Set(count, sender);
        globals.SetNumber(INVESTOR_COUNT, count + 1);
      }
      investorBalance.Set(sender, balance + value);
      purchasedTokens.Set(sender, purchased + tokens);
    }

    /** `forward_liquidity`: after the investment days, once. The calls
        that hand the cspr and the tokens to the pair are not modelled;
        `amountA`, `amountB` and `liquidity` are what the router reports. */
    method ForwardLiquidity(day: nat, amountA: U256, amountB: U256, liquidity: U256) returns (r: Outcome<LtError>)
      requires Valid()
      modifies this, globals
      ensures Valid()
      ensures day <= INVESTMENT_DAYS ==> r == Fail(OngoingInvestmentPhase)
      ensures day > INVESTMENT_DAYS && old(globals.GetFlag(UNISWAP_SWAPED)) ==> r == Fail(Swapped)
      ensures r == Pass <==> day > INVESTMENT_DAYS && !old(globals.GetFlag(UNISWAP_SWAPED))
      ensures r == Pass ==> globals.GetFlag(UNISWAP_SWAPED)
                            && globals.flags == old(globals.flags)[UNISWAP_SWAPED := true]
                            && events == old(events) + [UniswapSwapResult(amountA, amountB, liquidity)]
      ensures r.Fail? ==> globals.flags == old(globals.flags) && events == old(events)
      ensures globals.numbers == old(globals.numbers)
    {
      if day <= INVESTMENT_DAYS {
        return Fail(OngoingInvestmentPhase);
      }
      if globals.GetFlag(UNISWAP_SWAPED) {
        return Fail(Swapped);
      }
      globals.SetFlag(UNISWAP_SWAPED, true);
      events := events + [UniswapSwapResult(amountA, amountB, liquidity)];
      r := Pass;
    }

    /** `payout_investor_address`: after the forwarding, hands out the
        investor's purchased tokens (minted by the wise token) and clears
        them, so a second payout gives 0. */
    method PayoutInvestorAddress(investor: Key) returns (r: Result<U256, LtError>)
      requires Valid()
      modifies purchasedTokens
      ensures Valid()
      ensures r.Err? <==> !globals.GetFlag(UNISWAP_SWAPED)
      ensures r.Err? ==> r.error == ForwardLiquidityFirst && purchasedTokens.entries == old(purchasedTokens.entries)
      ensures r.Ok? ==> r.value == old(purchasedTokens.Get(investor))
                        && purchasedTokens.entries == old(purchasedTokens.entries)[investor := 0]
                        && purchasedTokens.Get(investor) == 0
    {
      if !globals.GetFlag(UNISWAP_SWAPED) {
        return Err(ForwardLiquidityFirst);
      }
      var payout := purchasedTokens.Get(investor);
      purchasedTokens.Set(investor, 0);
      r := Ok(payout);
    }

    /** `get_my_tokens`: the caller's own payout. */
    method GetMyTokens(caller: Key) returns (r: Result<U256, LtError>)
      requires Valid()
      modifies purchasedTokens
      ensures Valid()
      ensures r.Err? <==> !globals.GetFlag(UNISWAP_SWAPED)
      ensures r.Ok? ==> r.value == old(purchasedTokens.Get(caller))
                        && purchasedTokens.entries == old(purchasedTokens.entries)[caller := 0]
      ensures r.Err? ==> r.error == ForwardLiquidityFirst && purchasedTokens.entries == old(purchasedTokens.entries)
    {
      if !globals.GetFlag(UNISWAP_SWAPED) {
        return Err(ForwardLiquidityFirst);
      }
      r := PayoutInvestorAddress(caller);
    }

    /** `request_refund`: if the liquidity was never forwarded, after day
        INVESTMENT_DAYS + 10 an investor with a balance and tokens gets
        the balance back and gives up the tokens. TOTAL_CSPR_CONTRIBUTED
        is left as it is. */
    method RequestRefund(caller: Key, day: nat) returns (r: Result<(U256, U256), LtError>)
      requires Valid()
      modifies this, globals, investorBalance, purchasedTokens
      ensures Valid()
      ensures old(globals.GetFlag(UNISWAP_SWAPED)) || old(investorBalance.Get(caller)) == 0
              || old(purchasedTokens.Get(caller)) == 0 || day <= INVESTMENT_DAYS + 10
              ==> r == Err(RefundNotPossible)
      ensures r.Ok? <==>
                !old(globals.GetFlag(UNISWAP_SWAPED)) && old(investorBalance.Get(caller)) > 0
                && old(purchasedTokens.Get(caller)) > 0 && day > INVESTMENT_DAYS + 10
                && old(purchasedTokens.Get(caller)) <= old(globals.GetNumber(TOTAL_TRANSFER_TOKENS))
      ensures r.Err? ==> r.error in {RefundNotPossible, ApiNone}
      ensures old(purchasedTokens.Get(caller)) > old(globals.GetNumber(TOTAL_TRANSFER_TOKENS))
              && !(old(globals.GetFlag(UNISWAP_SWAPED)) || old(investorBalance.Get(caller)) == 0
                   || old(purchasedTokens.Get(caller)) == 0 || day <= INVESTMENT_DAYS + 10)
              ==> r == Err(ApiNone)
      ensures r.Ok? ==>
                r.value == (old(investorBalance.Get(caller)), old(purchasedTokens.Get(caller)))
                && investorBalance.entries == old(investorBalance.entries)[caller := 0]
                && purchasedTokens.entries == old(purchasedTokens.entries)[caller := 0]
                && globals.numbers
                   == old(globals.numbers)[TOTAL_TRANSFER_TOKENS :=
                        old(globals.GetNumber(TOTAL_TRANSFER_TOKENS)) - old(purchasedTokens.Get(caller))]
                && globals.GetNumber(TOTAL_CSPR_CONTRIBUTED) == old(globals.GetNumber(TOTAL_CSPR_CONTRIBUTED))
                && events == old(events) + [RefundIssued(caller, old(investorBalance.Get(caller)))]
      ensures r.Err? ==> globals.numbers == old(globals.numbers)
                         && investorBalance.entries == old(investorBalance.entries)
                         && purchasedTokens.entries == old(purchasedTokens.entries)
                         && events == old(events)
      ensures globals.flags == old(globals.flags)
    {
      if globals.GetFlag(UNISWAP_SWAPED) || investorBalance.Get(caller) <= 0
         || purchasedTokens.Get(caller) <= 0 || day <= INVESTMENT_DAYS + 10 {
        return Err(RefundNotPossible);
      }
      var amount := investorBalance.Get(caller);
      var tokens := purchasedTokens.Get(caller);
      var transfer := globals.GetNumber(TOTAL_TRANSFER_TOKENS);
      if tokens > transfer {
        return Err(ApiNone);
      }
      investorBalance.Set(caller, 0);
      purchasedTokens.Set(caller, 0);
      globals.SetNumber(TOTAL_TRANSFER_TOKENS, transfer - tokens);
      if amount > 0 {
        events := events + [RefundIssued(caller, amount)];
      }
      r := Ok((amount, tokens));
    }
  }

  /** A reservation keeps the cash-back total within REFUND_CAP and the
      tokens sold within MAX_SUPPLY. */
  lemma ReservationKeepsCaps(contributed: U256, transfer: U256, cashBackTotal: U256,
                             value: U256, mode: U8)
    requires transfer <= MAX_SUPPLY && cashBackTotal <= REFUND_CAP
    requires GetTokenAmount(contributed, transfer, value).Ok?
    ensures transfer + GetTokenAmount(contributed, transfer, value).value.tokens <= MAX_SUPPLY
    ensures var cashBack := CashBack(mode, cashBackTotal, value,
                                     GetTokenAmount(contributed, transfer, value).value.returnAmount);
            cashBackTotal + (if cashBack.Some? then cashBack.value else 0) <= REFUND_CAP
  {
  }
}

=== FILE: lt_data.dfy ===
/** The liquidity transformer's constants and storage
    (liquidity_transformer/liquidity_transformer_crate/src/data.rs).

    Each dictionary is a small object over a map that the setters
    reassign; its getter supplies the default the source falls back to.
    Investors are identified by their `Key`: the source keys the
    per-investor dictionaries by a hash of the key, which the model
    takes to be injective. */
module LtData {
  import opened Wrappers
  import opened CasperTypes

  const INVESTMENT_DAYS: nat := 15
  const MAX_SUPPLY: nat := 264_000_000_000_000_000
  const MAX_INVEST: nat := 200_000_000_000_000
  const TOKEN_COST: nat := MAX_INVEST / (MAX_SUPPLY / 1_000_000_000)
  const REFUND_CAP: nat := 100_000_000_000
  const U128_LIMIT: nat := 0x1_0000_0000_0000_0000_0000_0000_0000_0000

  /** The token cost under integer division, and the bounds the
      reservation arithmetic relies on. */
  lemma ConstantValues()
    ensures TOKEN_COST == 757_575
    ensures INVESTMENT_DAYS == 15 && REFUND_CAP == 100_000_000_000
    ensures MAX_SUPPLY < U128_LIMIT && MAX_INVEST < U128_LIMIT
  {
  }

  // Names of the `Globals` entries.
  const CASH_BACK_TOTAL: string := "cash_back_total"
  const INVESTOR_COUNT: string := "investor_count"
  const TOTAL_TRANSFER_TOKENS: string := "total_transfer_tokens"
  const TOTAL_CSPR_CONTRIBUTED: string := "total_cspr_contributed"
  const UNISWAP_SWAPED: string := "uniswap_swaped"

  /** Two maps that agree outside `small` agree outside any wider set. */
  lemma AgreeOutsideWider<K, V>(a: map<K, V>, b: map<K, V>, small: set<K>, wide: set<K>)
    requires small <= wide
    requires a - small == b - small
    ensures a - wide == b - wide
  {
    forall k | k in a - wide
      ensures k in b - wide && (a - wide)[k] == (b - wide)[k]
    {
      assert k in a - small;
    }
    forall k | k in b - wide
      ensures k in a - wide
    {
      assert k in b - small;
    }
  }

  /** The `Globals` entries are five different names. */
  lemma GlobalNamesDistinct()
    ensures CASH_BACK_TOTAL != INVESTOR_COUNT && CASH_BACK_TOTAL != TOTAL_TRANSFER_TOKENS
    ensures CASH_BACK_TOTAL != TOTAL_CSPR_CONTRIBUTED && INVESTOR_COUNT != TOTAL_TRANSFER_TOKENS
    ensures INVESTOR_COUNT != TOTAL_CSPR_CONTRIBUTED && TOTAL_TRANSFER_TOKENS != TOTAL_CSPR_CONTRIBUTED
  {
    assert CASH_BACK_TOTAL[0] != INVESTOR_COUNT[0] && CASH_BACK_TOTAL[0] != TOTAL_TRANSFER_TOKENS[0];
    assert CASH_BACK_TOTAL[0] != TOTAL_CSPR_CONTRIBUTED[0] && INVESTOR_COUNT[0] != TOTAL_TRANSFER_TOKENS[0];
    assert INVESTOR_COUNT[0] != TOTAL_CSPR_CONTRIBUTED[0] && TOTAL_TRANSFER_TOKENS[6] != TOTAL_CSPR_CONTRIBUTED[6];
  }

  // Names of the address keys.
  const SETTINGS_KEEPER: string := "settings_keeper"
  const WISE_CONTRACT: string := "wise_contract"
  const SCSPR: string := "scspr"
  const UNISWAP_PAIR: string := "uniswap_pair"
  const UNISWAP_ROUTER: string := "uniswap_router"
  const WCSPR: string := "wcspr"

  /** `Globals`: one dictionary holding the counters and the swap flag;
      an entry never set reads as 0 or false. */
  class Globals {
    var numbers: map<string, U256>
    var flags: map<string, bool>

    constructor ()
      ensures numbers == map[] && flags == map[]
    {
      numbers := map[];
      flags := map[];
    }

    function GetNumber(name: string): (v: U256)
      reads this
      ensures name !in numbers ==> v == 0
      ensures name in numbers ==> v == numbers[name]
    {
      if name in numbers then numbers[name] else 0
    }

    function GetFlag(name: string): (v: bool)
      reads this
      ensures name !in flags ==> !v
      ensures name in flags ==> v == flags[name]
    {
      name in flags && flags[name]
    }

    method SetNumber(name: string, value: U256)
      modifies this
      ensures GetNumber(name) == value
      ensures forall other :: other != name ==> GetNumber(other) == old(GetNumber(other))
      ensures numbers == old(numbers)[name := value] && flags == old(flags)
    {
      numbers := numbers[name := value];
    }

    method SetFlag(name: string, value: bool)
      modifies this
      ensures GetFlag(name) == value
      ensures forall other :: other != name ==> GetFlag(other) == old(GetFlag(other))
      ensures flags == old(flags)[name := value] && numbers == old(numbers)
    {
      flags := flags[name := value];
    }
  }

  /** `InvestorBalance` and `PurchasedTokens`: an amount per investor,
      0 for an investor never seen. */
  class AmountDict {
    var entries: map<Key, U256>

    constructor ()
      ensures entries == map[]
    {
      entries := map[];
    }

    function Get(investor: Key): (v: U256)
      reads this
      ensures investor !in entries ==> v == 0
      ensures investor in entries ==> v == entries[investor]
    {
      if investor in entries then entries[investor] else 0
    }

    method Set(investor: Key, value: U256)
      modifies this
      ensures Get(investor) == value
      ensures forall other :: other != investor ==> Get(other) == old(Get(other))
      ensures entries == old(entries)[investor := value]
    {
      entries := entries[investor := value];
    }
  }

  /** `UniqueInvestors`: investors by arrival index. Reading an index
      never written unwraps nothing and aborts, so `Get` gives None. */
  class UniqueInvestors {
    var entries: map<U256, Key>

    constructor ()
      ensures entries == map[]
    {
      entries := map[];
    }

    function Get(index: U256): (v: Option<Key>)
      reads this
      ensures v.None? <==> index !in entries
      ensures v.Some? ==> v.value == entries[index]
    {
      if index in entries then Some(entries[index]) else None
    }

    method Set(index: U256, investor: Key)
      modifies this
      ensures Get(index) == Some(investor)
      ensures forall other :: other != index ==> Get(other) == old(Get(other))
      ensures entries == old(entries)[index := investor]
    {
      entries := entries[index := investor];
    }
  }

  /** The address keys; an address never set reads as the zero address. */
  class NamedKeys {
    var keys: map<string, Key>

    constructor ()
      ensures keys == map[]
    {
      keys := map[];
    }

    function Get(name: string): (v: Key)
      reads this
      ensures name !in keys ==> v == ZERO_ADDRESS
      ensures name in keys ==> v == keys[name]
    {
      if name in keys then keys[name] else ZERO_ADDRESS
    }

    method Set(name: string, value: Key)
      modifies this
      ensures Get(name) == value
      ensures forall other :: other != name ==> Get(other) == old(Get(other))
      ensures keys == old(keys)[name := value]
    {
      keys := keys[name := value];
    }
  }
}

=== FILE: scspr.dfy ===
/** The SCSPR contract's administration and deposit gating
    (scspr/scspr_crate/src/scspr.rs).

    SCSPR is a synthetic token: its master address, its flags and its
    stored evaluation are the synthetic token's named keys, held here by
    `token`. The caller, the addresses other contracts return, the
    contract purse's balance and the pair's balances after the foreign
    calls are inputs. A revert leaves every field as it was. */
module Scspr {
  import opened Wrappers
  import opened CasperTypes
  import opened SyntheticHelper
  import ST = SyntheticToken
  import opened ScsprEvents

  /** The user errors of errors.rs, the `AmountToTransferIsZero` that
      scspr.rs raises, a failed `unwrap_or_revert()`, a panic, and a
      revert raised by the synthetic token's formulas. */
  datatype ScsprError =
    | InvalidAddress
    | InvalidCallDetected
    | InvalidWiseContractAddress
    | InvalidTransferHelperAddress
    | InvalidDeposit
    | InvalidState
    | AlreadyDefined
    | DepositDisabled
    | NotOwner
    | AmountToTransferIsZero
    | ApiNone
    | Panic
    | Token(tokenError: ST.StError)

  /** The pair as `deposit` sees it at each step that reads it: after
      `_clean_up` (the fee decision), after the fee extraction (the
      arbitrage decision), after the arbitrage's first liquidity removal
      (its second formula), and after `_settle_cspr` (the stored
      evaluation). The steps between them are calls into other contracts. */
  datatype DepositViews = DepositViews(
    atFees: ST.PoolView, atArbitrage: ST.PoolView, rebalanced: ST.PoolView, after: ST.PoolView)

  /** The verdict of `deposit` when deposits are `allowed` and the stored
      evaluation is `previous`: the allow check, then the reverts of
      `_fees_decision`, of `_arbitrage_decision` and of
      `_update_evaluation`, in that order. */
  function DepositOutcome(allowed: bool, previous: U256, views: DepositViews, inverseFee: U256)
    : (r: Outcome<ScsprError>)
    ensures !allowed ==> r == Fail(InvalidDeposit)
    ensures allowed && ST.FeeExtraction(views.atFees, previous).Err?
            ==> r == Fail(Token(ST.FeeExtraction(views.atFees, previous).error))
    ensures allowed && ST.FeeExtraction(views.atFees, previous).Ok?
            && ST.ArbitrageOutcome(views.atArbitrage, views.rebalanced, inverseFee).Fail?
            ==> r == Fail(Token(ST.ArbitrageOutcome(views.atArbitrage, views.rebalanced, inverseFee).error))
    ensures allowed && ST.FeeExtraction(views.atFees, previous).Ok?
            && ST.ArbitrageOutcome(views.atArbitrage, views.rebalanced, inverseFee) == Pass
            && ST.Evaluation(views.after).Err?
            ==> r == Fail(Token(ST.Evaluation(views.after).error))
    ensures r == Pass <==>
              allowed && ST.FeeExtraction(views.atFees, previous).Ok?
              && ST.ArbitrageOutcome(views.atArbitrage, views.rebalanced, inverseFee) == Pass
              && ST.Evaluation(views.after).Ok?
  {
    if !allowed then Fail(InvalidDeposit)
    else if ST.FeeExtraction(views.atFees, previous).Err? then
      Fail(Token(ST.FeeExtraction(views.atFees, previous).error))
    else if ST.ArbitrageOutcome(views.atArbitrage, views.rebalanced, inverseFee).Fail? then
      Fail(Token(ST.ArbitrageOutcome(views.atArbitrage, views.rebalanced, inverseFee).error))
    else if ST.Evaluation(views.after).Err? then Fail(Token(ST.Evaluation(views.after).error))
    else Pass
  }

  /** A deposit while the pair holds synthetic tokens but no wrapped ones
      (at the arbitrage decision) never goes through. */
  lemma DepositWithEmptyWrappedReserveReverts(
    allowed: bool, previous: U256, views: DepositViews, inverseFee: U256)
    requires views.atArbitrage.wrapped == 0 < views.atArbitrage.synthetic
    requires views.atArbitrage.synthetic * 1_000_000 <= U256_MAX
    ensures DepositOutcome(allowed, previous, views, inverseFee).Fail?
  {
    ST.EmptyWrappedReserveReverts(views.atArbitrage, views.rebalanced, inverseFee);
  }

  class Scspr {
    /** The synthetic token state this contract shares. */
    const token: ST.SyntheticToken
    /** The contract's own package hash. */
    const packageHash: Key
    /** `wise_contract`; reading it before it is set reverts. */
    var wiseContract: Option<Key>
    var events: seq<ScsprEvent>

    /** `init`: the caller becomes owner and master. */
    constructor (caller: Key, ownPackageHash: Key)
      ensures token.owner == caller && token.masterAddress == caller
      ensures !token.allowDeposit && !token.tokenDefined && !token.helperDefined
      ensures !token.bypassEnabled && token.currentEvaluation == 0
      ensures packageHash == ownPackageHash && wiseContract == None && events == []
    {
      token := new ST.SyntheticToken(caller, ZERO_ADDRESS);
      packageHash := ownPackageHash;
      wiseContract := None;
      events := [];
    }

    /** `only_master`: passes for the master, and for everyone once the
        master is the zero address. */
    function OnlyMaster(caller: Key): (r: Outcome<ScsprError>)
      reads token
      ensures r == Pass <==> caller == token.masterAddress || token.masterAddress == ZERO_ADDRESS
      ensures r.Fail? ==> r.error == InvalidAddress
    {
      if caller != token.masterAddress && token.masterAddress != ZERO_ADDRESS then Fail(InvalidAddress)
      else Pass
    }

    /** `only_transformer`: `transformer` is the address the wise
        contract reports as its liquidity transformer. */
    function OnlyTransformer(caller: Key, transformer: Key): (r: Outcome<ScsprError>)
      reads this
      ensures r == Pass <==> wiseContract.Some? && caller == transformer
      ensures wiseContract.None? ==> r == Fail(ApiNone)
      ensures wiseContract.Some? && caller != transformer ==> r == Fail(InvalidCallDetected)
    {
      if wiseContract.None? then Fail(ApiNone)
      else if caller != transformer then Fail(InvalidCallDetected)
      else Pass
    }

    /** `set_master`: only the owner may replace the master. */
    method SetMaster(caller: Key, master: Key) returns (r: Outcome<ScsprError>)
      modifies token
      ensures r == Pass <==> caller == token.owner
      ensures r.Fail? ==> r.error == NotOwner && token.masterAddress == old(token.masterAddress)
      ensures r == Pass ==> token.masterAddress == master
      ensures token.owner == old(token.owner) && token.uniswapPair == old(token.uniswapPair)
      ensures token.currentEvaluation == old(token.currentEvaluation)
      ensures token.allowDeposit == old(token.allowDeposit) && token.bypassEnabled == old(token.bypassEnabled)
      ensures token.tokenDefined == old(token.tokenDefined) && token.helperDefined == old(token.helperDefined)
    {
      if caller != token.owner {
        return Fail(NotOwner);
      }
      token.masterAddress := master;
      r := Pass;
    }

    /** `set_wise`: the master records the wise contract. */
    method SetWise(caller: Key, wise: Key) returns (r: Outcome<ScsprError>)
      modifies this
      ensures r == OnlyMaster(caller)
      ensures r == Pass ==> wiseContract == Some(wise)
      ensures r.Fail? ==> wiseContract == old(wiseContract)
      ensures events == old(events)
    {
      r := OnlyMaster(caller);
      if r.Fail? {
        return;
      }
      wiseContract := Some(wise);
    }

    /** `renounce_ownership`: the master becomes the zero address, after
        which `only_master` lets every caller through. */
    method RenounceOwnership(caller: Key) returns (r: Outcome<ScsprError>)
      modifies token
      ensures r == old(OnlyMaster(caller))
      ensures r == Pass ==> token.masterAddress == ZERO_ADDRESS
      ensures r == Pass ==> forall anyone: Key :: OnlyMaster(anyone) == Pass
      ensures r.Fail? ==> token.masterAddress == old(token.masterAddress)
      ensures token.owner == old(token.owner) && token.uniswapPair == old(token.uniswapPair)
      ensures token.currentEvaluation == old(token.currentEvaluation)
      ensures token.allowDeposit == old(token.allowDeposit) && token.bypassEnabled == old(token.bypassEnabled)
      ensures token.tokenDefined == old(token.tokenDefined) && token.helperDefined == old(token.helperDefined)
    {
      r := OnlyMaster(caller);
      if r.Fail? {
        return;
      }
      token.masterAddress := ZERO_ADDRESS;
    }

    /** `forward_ownership`: the master hands the role to `newMaster`;
        nothing else changes. */
    method ForwardOwnership(caller: Key, newMaster: Key) returns (r: Outcome<ScsprError>)
      modifies token
      ensures r == old(OnlyMaster(caller))
      ensures r == Pass ==> token.masterAddress == newMaster
      ensures r.Fail? ==> token.masterAddress == old(token.masterAddress)
      ensures token.owner == old(token.owner) && token.uniswapPair == old(token.uniswapPair)
      ensures token.currentEvaluation == old(token.currentEvaluation)
      ensures token.allowDeposit == old(token.allowDeposit) && token.bypassEnabled == old(token.bypassEnabled)
      ensures token.tokenDefined == old(token.tokenDefined) && token.helperDefined == old(token.helperDefined)
    {
      r := OnlyMaster(caller);
      if r.Fail? {
        return;
      }
      token.masterAddress := newMaster;
    }

    /** `define_token`: one-shot; `reported` is the synthetic token
        address the wise token returns, which must be this contract. */
    method DefineToken(caller: Key, reported: Key) returns (r: Result<Key, ScsprError>)
      modifies token
      ensures old(OnlyMaster(caller)).Fail? ==> r == Err(old(OnlyMaster(caller)).error)
      ensures old(OnlyMaster(caller)) == Pass && old(token.tokenDefined) ==> r == Err(AlreadyDefined)
      ensures old(OnlyMaster(caller)) == Pass && !old(token.tokenDefined) && reported != packageHash
              ==> r == Err(InvalidWiseContractAddress)
      ensures r.Ok? <==> old(OnlyMaster(caller)) == Pass && !old(token.tokenDefined) && reported == packageHash
      ensures r.Ok? ==> r.value == packageHash && token.tokenDefined
      ensures r.Err? ==> token.tokenDefined == old(token.tokenDefined)
      ensures token.owner == old(token.owner) && token.masterAddress == old(token.masterAddress)
      ensures token.uniswapPair == old(token.uniswapPair) && token.currentEvaluation == old(token.currentEvaluation)
      ensures token.allowDeposit == old(token.allowDeposit) && token.bypassEnabled == old(token.bypassEnabled)
      ensures token.helperDefined == old(token.helperDefined)
    {
      var master := OnlyMaster(caller);
      if master.Fail? {
        return Err(master.error);
      }
      if token.tokenDefined {
        return Err(AlreadyDefined);
      }
      if reported != packageHash {
        return Err(InvalidWiseContractAddress);
      }
      token.tokenDefined := true;
      r := Ok(reported);
    }

    /** `define_helper`: one-shot; `reported` is the transfer invoker the
        helper returns, which must be this contract. */
    method DefineHelper(caller: Key, reported: Key) returns (r: Result<Key, ScsprError>)
      modifies token
      ensures old(OnlyMaster(caller)).Fail? ==> r == Err(old(OnlyMaster(caller)).error)
      ensures old(OnlyMaster(caller)) == Pass && old(token.helperDefined) ==> r == Err(AlreadyDefined)
      ensures old(OnlyMaster(caller)) == Pass && !old(token.helperDefined) && reported != packageHash
              ==> r == Err(InvalidTransferHelperAddress)
      ensures r.Ok? <==> old(OnlyMaster(caller)) == Pass && !old(token.helperDefined) && reported == packageHash
      ensures r.Ok? ==> r.value == packageHash && token.helperDefined
      ensures r.Err? ==> token.helperDefined == old(token.helperDefined)
      ensures token.owner == old(token.owner) && token.masterAddress == old(token.masterAddress)
      ensures token.uniswapPair == old(token.uniswapPair) && token.currentEvaluation == old(token.currentEvaluation)
      ensures token.allowDeposit == old(token.allowDeposit) && token.bypassEnabled == old(token.bypassEnabled)
      ensures token.tokenDefined == old(token.tokenDefined)
    {
      var master := OnlyMaster(caller);
      if master.Fail? {
        return Err(master.error);
      }
      if token.helperDefined {
        return Err(AlreadyDefined);
      }
      if reported != packageHash {
        return Err(InvalidTransferHelperAddress);
      }
      token.helperDefined := true;
      r := Ok(reported);
    }

    /** `create_pair`: the master records the pair the factory creates. */
    method CreatePair(caller: Key, pair: Key) returns (r: Outcome<ScsprError>)
      modifies token
      ensures r == old(OnlyMaster(caller))
      ensures r == Pass ==> token.uniswapPair == pair
      ensures r.Fail? ==> token.uniswapPair == old(token.uniswapPair)
      ensures token.owner == old(token.owner) && token.masterAddress == old(token.masterAddress)
      ensures token.currentEvaluation == old(token.currentEvaluation)
      ensures token.allowDeposit == old(token.allowDeposit) && token.bypassEnabled == old(token.bypassEnabled)
      ensures token.tokenDefined == old(token.tokenDefined) && token.helperDefined == old(token.helperDefined)
    {
      r := OnlyMaster(caller);
      if r.Fail? {
        return;
      }
      token.uniswapPair := pair;
    }

    /** `deposit`: open only once liquidity is formed. The payment into
        the contract purse and `_clean_up` are calls into other contracts;
        then the fee decision, the arbitrage decision, `_settle_cspr`
        (whose unwrap leaves the bypass flag off) and the stored
        evaluation, and the event. */
    method Deposit(caller: Key, msgValue: U256, views: DepositViews, inverseFee: U256)
      returns (r: Outcome<ScsprError>)
      modifies this, token
      ensures r == DepositOutcome(old(token.allowDeposit), old(token.currentEvaluation), views, inverseFee)
      ensures r == Pass ==> token.currentEvaluation == ST.Evaluation(views.after).value
                            && events == old(events) + [DepositedLiquidity(msgValue, caller)]
                            && !token.bypassEnabled
      ensures r.Fail? ==> token.currentEvaluation == old(token.currentEvaluation) && events == old(events)
                          && token.bypassEnabled == old(token.bypassEnabled)
      ensures wiseContract == old(wiseContract)
      ensures token.owner == old(token.owner) && token.masterAddress == old(token.masterAddress)
      ensures token.uniswapPair == old(token.uniswapPair) && token.allowDeposit == old(token.allowDeposit)
      ensures token.tokenDefined == old(token.tokenDefined) && token.helperDefined == old(token.helperDefined)
    {
      if !token.allowDeposit {
        return Fail(InvalidDeposit);
      }
      var fees := token.FeesDecision(views.atFees);
      if fees.Err? {
        return Fail(Token(fees.error));
      }
      var arbitrage := ST.ArbitrageOutcome(views.atArbitrage, views.rebalanced, inverseFee);
      if arbitrage.Fail? {
        return Fail(Token(arbitrage.error));
      }
      var bypassBefore := token.bypassEnabled;
      var _ := token.Unwrap();
      var updated := token.UpdateEvaluation(views.after);
      if updated.Fail? {
        // the revert also undoes the unwrap's writes to the flag
        token.bypassEnabled := bypassBefore;
        return Fail(Token(updated.error));
      }
      events := events + [DepositedLiquidity(msgValue, caller)];
      r := Pass;
    }

    /** `receive`: rejected before liquidity is formed; afterwards it
        deposits only while the bypass flag is on, that is, while the
        contract itself is unwrapping wcspr. */
    method Receive(caller: Key, msgValue: U256, views: DepositViews, inverseFee: U256)
      returns (r: Outcome<ScsprError>)
      modifies this, token
      ensures !old(token.allowDeposit) ==> r == Fail(DepositDisabled)
      ensures old(token.allowDeposit) && !old(token.bypassEnabled)
              ==> r == Pass && events == old(events)
                  && token.currentEvaluation == old(token.currentEvaluation)
                  && token.bypassEnabled == old(token.bypassEnabled)
      ensures old(token.allowDeposit) && old(token.bypassEnabled)
              ==> r == DepositOutcome(true, old(token.currentEvaluation), views, inverseFee)
      ensures old(token.allowDeposit) && old(token.bypassEnabled) && r == Pass
              ==> token.currentEvaluation == ST.Evaluation(views.after).value
                  && events == old(events) + [DepositedLiquidity(msgValue, caller)]
                  && !token.bypassEnabled
      ensures r.Fail? ==> token.currentEvaluation == old(token.currentEvaluation) && events == old(events)
                          && token.bypassEnabled == old(token.bypassEnabled)
      ensures wiseContract == old(wiseContract)
      ensures token.owner == old(token.owner) && token.masterAddress == old(token.masterAddress)
      ensures token.uniswapPair == old(token.uniswapPair) && token.allowDeposit == old(token.allowDeposit)
      ensures token.tokenDefined == old(token.tokenDefined) && token.helperDefined == old(token.helperDefined)
    {
      if !token.allowDeposit {
        return Fail(DepositDisabled);
      }
      if token.bypassEnabled {
        r := Deposit(caller, msgValue, views, inverseFee);
      } else {
        r := Pass;
      }
    }

    /** `liquidity_deposit`: the transformer's deposits before liquidity
        is formed; the minted tokens and the purse transfers are not
        modelled. */
    method LiquidityDeposit(caller: Key, transformer: Key, msgValue: U256) returns (r: Outcome<ScsprError>)
      modifies this
      ensures OnlyTransformer(caller, transformer).Fail? ==> r == OnlyTransformer(caller, transformer)
      ensures r == Pass <==> OnlyTransformer(caller, transformer) == Pass && !token.allowDeposit
      ensures OnlyTransformer(caller, transformer) == Pass && token.allowDeposit ==> r == Fail(InvalidDeposit)
      ensures r == Pass ==> events == old(events) + [DepositedLiquidity(msgValue, caller)]
      ensures r.Fail? ==> events == old(events)
      ensures wiseContract == old(wiseContract)
    {
      r := OnlyTransformer(caller, transformer);
      if r.Fail? {
        return;
      }
      if token.allowDeposit {
        return Fail(InvalidDeposit);
      }
      events := events + [DepositedLiquidity(msgValue, caller)];
    }

    /** `form_liquidity`: succeeds at most once. It opens deposits, covers
        the pair with half the contract purse, and stores the resulting
        evaluation. `purseBalance` is the purse before the call,
        `wcsprDeposited` whether the wcspr deposit succeeded, `added` what
        the router's `add_liquidity` reports and `poolAfter` the pair
        afterwards. The cover amount is half the purse, read as a U256
        (CoverAmount), and the wcspr deposit asks for that amount
        (CoverDeposit). */
    method FormLiquidity(caller: Key, transformer: Key, purseBalance: U512, wcsprDeposited: bool,
                         added: (U256, U256, U256), poolAfter: ST.PoolView)
      returns (r: Result<U256, ScsprError>)
      modifies this, token
      ensures OnlyTransformer(caller, transformer).Fail? ==> r == Err(OnlyTransformer(caller, transformer).error)
      ensures OnlyTransformer(caller, transformer) == Pass && old(token.allowDeposit) ==> r == Err(InvalidState)
      ensures r.Ok? <==>
                OnlyTransformer(caller, transformer) == Pass && !old(token.allowDeposit)
                && CoverAmount(purseBalance).Some? && wcsprDeposited && ST.Evaluation(poolAfter).Ok?
      ensures r.Ok? ==>
                r.value == CoverAmount(purseBalance).value && r.value == CoverDeposit(purseBalance)
                && token.allowDeposit
                && token.currentEvaluation == ST.Evaluation(poolAfter).value
                && events == old(events) + [FormedLiquidity(r.value, added.0, added.1, added.2)]
      ensures r.Err? ==> token.allowDeposit == old(token.allowDeposit) && events == old(events)
                         && token.currentEvaluation == old(token.currentEvaluation)
      ensures wiseContract == old(wiseContract)
      ensures token.owner == old(token.owner) && token.masterAddress == old(token.masterAddress)
      ensures token.uniswapPair == old(token.uniswapPair) && token.bypassEnabled == old(token.bypassEnabled)
      ensures token.tokenDefined == old(token.tokenDefined) && token.helperDefined == old(token.helperDefined)
    {
      var transformerCheck := OnlyTransformer(caller, transformer);
      if transformerCheck.Fail? {
        return Err(transformerCheck.error);
      }
      if token.allowDeposit {
        return Err(InvalidState);
      }
      var cover := CoverAmount(purseBalance);
      if cover.None? {
        return Err(Panic);
      }
      var coverAmount := cover.value;
      if !wcsprDeposited {
        return Err(AmountToTransferIsZero);
      }
      var evaluation := ST.Evaluation(poolAfter);
      if evaluation.Err? {
        return Err(Token(evaluation.error));
      }
      token.allowDeposit := true;
      events := events + [FormedLiquidity(coverAmount, added.0, added.1, added.2)];
      var updated := token.UpdateEvaluation(poolAfter);
      r := Ok(coverAmount);
    }
  }

  /** The cover amount as `form_liquidity` computes it: half the purse
      balance, turned into a U256 by printing it in decimal and parsing the
      digits with the uint crate's `FromStr`, which reads hexadecimal. The
      parse fails, and the `unwrap` panics, from 64 digits on; otherwise the
      value is never below the half and equals it only for a half below 10. */
  function CoverAmountAsWritten(purseBalance: U512): (r: Option<U256>)
    ensures r.None? <==> GetBalanceHalf(purseBalance) >= Pow(10, 64)
    ensures r.Some? ==>
              r.value >= GetBalanceHalf(purseBalance)
              && (r.value == GetBalanceHalf(purseBalance) <==> GetBalanceHalf(purseBalance) < 10)
  {
    HexReadingOfDecimal(GetBalanceHalf(purseBalance));
    DecimalLength(GetBalanceHalf(purseBalance), 64);
    ParseHexU256(DecimalString(GetBalanceHalf(purseBalance)))
  }

  /** A purse of 20 motes has the half 10, printed "10" and read back as
      0x10: sixteen tokens are minted and offered to the pair, not ten. */
  lemma CoverAmountAsWrittenMisreads()
    ensures GetBalanceHalf(20) == 10
    ensures CoverAmountAsWritten(20) == Some(16)
  {
    var s := DecimalString(10);
    assert s == "10" by {
      assert DecimalString(1) == "1";
    }
    assert s[..1] == "1";
    assert DigitsValue(s, 16) == 16;
  }

  /** The cover amount `form_liquidity` evidently means: half the purse
      balance, as a U256, with a panic only when the half does not fit. */
  function CoverAmount(purseBalance: U512): (r: Option<U256>)
    ensures r.Some? <==> GetBalanceHalf(purseBalance) <= U256_MAX
    ensures r.Some? ==> 2 * r.value <= purseBalance <= 2 * r.value + 1
  {
    var half := GetBalanceHalf(purseBalance);
    if half <= U256_MAX then Some(half) else None
  }

  /** The amount `form_liquidity` asks the wcspr contract to deposit, as
      written: the U512 half of the contract purse times itself, computed
      once the half was read back as a U256. It is never below the
      intended deposit and equals it only for a contract purse of at most
      3 motes (a half of 0 or 1). */
  function CoverDepositAsWritten(purseBalance: U512): (amount: U512)
    requires CoverAmountAsWritten(purseBalance).Some?
    ensures amount >= CoverDeposit(purseBalance)
    ensures amount == CoverDeposit(purseBalance) <==> purseBalance <= 3
  {
    var half := GetBalanceHalf(purseBalance);
    CoverSquareFits(half);
    SquareAtLeastSelf(half);
    half * half
  }

  /** h^2 >= h, with equality exactly for h <= 1. */
  lemma SquareAtLeastSelf(h: nat)
    ensures h * h >= h
    ensures h * h == h <==> h <= 1
  {
    if h >= 2 {
      ST.MulMonotone(h, 2, h);
    }
  }

  /** As written, from a contract purse of 6 motes on, the deposit asks
      for more than the whole contract purse holds. The deposit draws on
      the purse passed to `form_liquidity`, whose balance is an input this
      model does not see, so whether the wcspr deposit fails is not
      decided here. */
  lemma {:induction false} CoverDepositAsWrittenExceedsPurse(purseBalance: U512)
    requires 6 <= purseBalance && CoverAmountAsWritten(purseBalance).Some?
    ensures CoverDepositAsWritten(purseBalance) > purseBalance
  {
    var half: nat := GetBalanceHalf(purseBalance);
    SquareAboveDouble(half);
  }

  /** h^2 > 2h + 1 for h >= 3. */
  lemma SquareAboveDouble(h: nat)
    requires h >= 3
    ensures h * h > 2 * h + 1
  {
    var k: nat := h - 3;
    calc {
      h * h;
    ==
      (k + 3) * (k + 3);
    ==
      k * k + 6 * k + 9;
    }
  }

  /** The deposit `form_liquidity` evidently means: the cover amount, the
      wcspr side of the liquidity it adds. It never exceeds half the purse. */
  function CoverDeposit(purseBalance: U512): (amount: U512)
    ensures 2 * amount <= purseBalance
    ensures CoverAmount(purseBalance).Some? ==> amount == CoverAmount(purseBalance).value
  {
    GetBalanceHalf(purseBalance)
  }

  /** The U512 product `cover_amount_ * cover_amount_` in `form_liquidity`
      cannot overflow once the cover amount fits in a U256. */
  lemma CoverSquareFits(cover: U256)
    ensures cover * cover <= U512_MAX
  {
    ST.MulMonotone(cover, cover, U256_MAX);
    ST.MulMonotone(U256_MAX, cover, U256_MAX);
  }
}

=== FILE: scspr_event.dfy ===
/** The events of the SCSPR contract (scspr/scspr_crate/src/event.rs)
    and the name each one is stored under. */
module ScsprEvents {
  import opened Wrappers
  import opened CasperTypes

  datatype ScsprEvent =
    | DepositedLiquidity(depositAmount: U256, transformerAddress: Key)
    | Withdrawal(fromAddress: Key, tokenAmount: U256)
    | FormedLiquidity(coverAmount: U256, amountTokenA: U256, amountTokenB: U256, liquidity: U256)

  /** The variant of an event, without its fields. */
  datatype EventKind = DepositedLiquidityKind | WithdrawalKind | FormedLiquidityKind

  function KindOf(e: ScsprEvent): EventKind {
    match e
    case DepositedLiquidity(_, _) => DepositedLiquidityKind
    case Withdrawal(_, _) => WithdrawalKind
    case FormedLiquidity(_, _, _, _) => FormedLiquidityKind
  }

  /** The name of each variant; the third keeps the trailing `v` it has
      in the contract. */
  function KindName(k: EventKind): string {
    match k
    case DepositedLiquidityKind => "depositedLiquidity"
    case WithdrawalKind => "withdrawal"
    case FormedLiquidityKind => "formedLiquidityv"
  }

  /** `type_name`: the event's name, a function of its variant alone. */
  function TypeName(e: ScsprEvent): (name: string)
    ensures name == KindName(KindOf(e))
  {
    match e
    case DepositedLiquidity(_, _) => "depositedLiquidity"
    case Withdrawal(_, _) => "withdrawal"
    case FormedLiquidity(_, _, _, _) => "formedLiquidityv"
  }

  /** Reads the variant back from a stored name. */
  function KindOfName(name: string): (k: Option<EventKind>)
    ensures k.Some? ==> KindName(k.value) == name
  {
    if name == "depositedLiquidity" then Some(DepositedLiquidityKind)
    else if name == "withdrawal" then Some(WithdrawalKind)
    else if name == "formedLiquidityv" then Some(FormedLiquidityKind)
    else None
  }

  /** The stored name identifies the variant. */
  lemma TypeNameRoundTrip(e: ScsprEvent)
    ensures KindOfName(TypeName(e)) == Some(KindOf(e))
  {
  }

  /** Two events share a name exactly when they are of the same variant,
      whatever their fields. */
  lemma TypeNameDistinct(e1: ScsprEvent, e2: ScsprEvent)
    ensures TypeName(e1) == TypeName(e2) <==> KindOf(e1) == KindOf(e2)
  {
    TypeNameRoundTrip(e1);
    TypeNameRoundTrip(e2);
  }
}

=== FILE: synthetic_helper.dfy ===
/** The synthetic helper (synthetic_helper_crate/src/synthetic_helper.rs):
    swap paths, the doubled integer square root used by the arbitrage
    formula, and the halves and differences of the contract purse's
    balance, which the model takes as an input. */
module SyntheticHelper {
  import opened CasperTypes

  /** `_prepare_path`: the router path from one token to the other. */
  function PreparePath(tokenFrom: Key, tokenTo: Key): (path: seq<Key>)
    ensures |path| == 2 && path[0] == tokenFrom && path[1] == tokenTo
  {
    [tokenFrom, tokenTo]
  }

  /** Every U256 has a square root below 2^128, so doubling it stays in range. */
  lemma ISqrtOfU256(n: U256)
    ensures ISqrt(n) < 0x1_0000_0000_0000_0000_0000_0000_0000_0000
  {
    var b := 0x1_0000_0000_0000_0000_0000_0000_0000_0000;
    if ISqrt(n) >= b {
      SquareMonotone(b, ISqrt(n));
      assert false;
    }
  }

  /** `_get_double_root`: twice the integer square root of `amount`. */
  function GetDoubleRoot(amount: U256): (r: U256)
    ensures r % 2 == 0
    ensures (r / 2) * (r / 2) <= amount < (r / 2 + 1) * (r / 2 + 1)
  {
    ISqrtOfU256(amount);
    ISqrt(amount) * 2
  }

  /** The double root of a perfect square k * k is 2 * k; in particular
      the double root of 0 is 0. */
  lemma DoubleRootOfSquare(k: nat)
    requires k * k <= U256_MAX
    ensures GetDoubleRoot(k * k) == 2 * k
  {
    ISqrtOfSquare(k);
  }

  /** Arithmetic-geometric mean on naturals: r * r <= w * s implies
      2 * r <= w + s. */
  lemma AmGm(w: nat, s: nat, r: nat)
    requires r * r <= w * s
    ensures 2 * r <= w + s
  {
    var t := w + s;
    FourProductAtMostSquare(w, s);
    if 2 * r > t {
      SquareMonotone(t + 1, 2 * r);
      assert false;
    }
  }

  /** 4 * w * s <= (w + s)^2, since the difference is (w - s)^2. */
  lemma FourProductAtMostSquare(w: nat, s: nat)
    ensures 4 * (w * s) <= (w + s) * (w + s)
  {
    var d: int := w - s;
    assert (w + s) * (w + s) == d * d + 4 * (w * s);
  }

  /** The double root of a product never exceeds the sum of the factors,
      so `w + s - 2 * isqrt(w * s)` cannot underflow. */
  lemma DoubleRootAtMostSum(w: nat, s: nat)
    requires w * s <= U256_MAX
    ensures GetDoubleRoot(w * s) <= w + s
  {
    var r := GetDoubleRoot(w * s) / 2;
    AmGm(w, s, r);
  }

  /** `_get_balance_half`: half the purse balance, rounded down. */
  function GetBalanceHalf(balance: U512): (half: U512)
    ensures 2 * half <= balance <= 2 * half + 1
  {
    balance / 2
  }

  /** `_get_balance_diff`: the purse balance above `amount`, saturating
      at zero instead of underflowing. */
  function GetBalanceDiff(balance: U512, amount: U256): (diff: U512)
    ensures balance > amount ==> diff + amount == balance
    ensures balance <= amount ==> diff == 0
    ensures diff <= balance
  {
    if balance > amount then balance - amount else 0
  }
}

=== FILE: synthetic_token.dfy ===
/** The synthetic token's pool arithmetic and decisions
    (synthetic_token/synthetic_token_crate/src/synthetic_token.rs).

    Every balance the contract reads from another contract is an input:
    `PoolView` holds the pair's wcspr and synthetic balances, the LP tokens
    the contract holds and the pair's LP total supply. The formulas use the
    uint crate's checked operations; a failed `unwrap_or_revert()` reverts
    with `ApiNone`, a failed `unwrap_or_revert_with(e)` with `e`, and an
    unchecked `*` that overflows panics (`Panic`). */
module SyntheticToken {
  import opened Wrappers
  import opened CasperTypes
  import opened HelperData
  import opened SyntheticHelper

  /** The user errors of error.rs, plus the two ways a call aborts without one. */
  datatype StError =
    | NotOwner | Div1 | Div2 | Div3 | Div4 | Div5 | Div6 | Div7 | Div8 | Div9
    | Div10 | Div11 | Div12 | Div13 | Sub1 | NotScspr | WithdrawFailed
    | ApiNone
    | Panic

  /** Balances read from the pair and the token before a computation. */
  datatype PoolView = PoolView(wrapped: U256, synthetic: U256, lpBalance: U256, totalSupply: U256)

  type StResult<T> = Result<T, StError>

  function MulOr(a: U256, b: U256, e: StError): (r: StResult<U256>)
    ensures r.Ok? <==> a * b <= U256_MAX
    ensures r.Ok? ==> r.value == a * b
    ensures r.Err? ==> r.error == e
  {
    match CheckedMul(a, b)
    case Some(v) => Ok(v)
    case None => Err(e)
  }

  function DivOr(a: U256, b: U256, e: StError): (r: StResult<U256>)
    ensures r.Ok? <==> b != 0
    ensures r.Ok? ==> r.value == a / b
    ensures r.Err? ==> r.error == e
  {
    if b == 0 then Err(e) else Ok(a / b)
  }

  function SubOr(a: U256, b: U256, e: StError): (r: StResult<U256>)
    ensures r.Ok? <==> b <= a
    ensures r.Ok? ==> r.value == a - b
    ensures r.Err? ==> r.error == e
  {
    match CheckedSub(a, b)
    case Some(v) => Ok(v)
    case None => Err(e)
  }

  function AddOr(a: U256, b: U256, e: StError): (r: StResult<U256>)
    ensures r.Ok? <==> a + b <= U256_MAX
    ensures r.Ok? ==> r.value == a + b
    ensures r.Err? ==> r.error == e
  {
    match CheckedAdd(a, b)
    case Some(v) => Ok(v)
    case None => Err(e)
  }

  /** The integer square root of a U256, as a U256. */
  function Sqrt256(n: U256): (r: U256)
    ensures r == ISqrt(n)
  {
    ISqrtOfU256(n);
    ISqrt(n)
  }

  // ---------------------------------------------------------------------
  // Formulas
  // ---------------------------------------------------------------------

  /** `_get_liquidity_percent`: the pair's LP supply per LP token held, in
      units of 10^-12. */
  function LiquidityPercent(p: PoolView): (r: StResult<U256>)
    ensures r == Err(ApiNone) <==> p.totalSupply * 1_000_000_000_000 > U256_MAX
    ensures r == Err(Div5) <==> p.totalSupply * 1_000_000_000_000 <= U256_MAX && p.lpBalance == 0
    ensures r.Ok? ==> p.lpBalance > 0 && r.value == p.totalSupply * 1_000_000_000_000 / p.lpBalance
  {
    var scaled :- MulOr(p.totalSupply, PRECISION_POINTS_POWER2, ApiNone);
    DivOr(scaled, p.lpBalance, Div5)
  }

  /** `_get_evaluation`: wrapped * 10^24 * synthetic / percent^2. */
  function Evaluation(p: PoolView): (r: StResult<U256>)
    ensures LiquidityPercent(p).Err? ==> r == LiquidityPercent(p)
    ensures r.Ok? <==>
              LiquidityPercent(p).Ok? && LiquidityPercent(p).value > 0
              && LiquidityPercent(p).value * LiquidityPercent(p).value <= U256_MAX
              && p.wrapped * 1_000_000_000_000_000_000_000_000 <= U256_MAX
              && p.wrapped * 1_000_000_000_000_000_000_000_000 * p.synthetic <= U256_MAX
    ensures r == Err(ApiNone) <==>
              LiquidityPercent(p) == Err(ApiNone)
              || (LiquidityPercent(p).Ok?
                  && (LiquidityPercent(p).value * LiquidityPercent(p).value > U256_MAX
                      || p.wrapped * 1_000_000_000_000_000_000_000_000 > U256_MAX
                      || p.wrapped * 1_000_000_000_000_000_000_000_000 * p.synthetic > U256_MAX))
    ensures r.Err? ==> r.error == ApiNone || r.error == Div5 || r.error == Div8
    ensures r == Err(Div8) <==>
              LiquidityPercent(p) == Ok(0)
              && p.wrapped * 1_000_000_000_000_000_000_000_000 <= U256_MAX
              && p.wrapped * 1_000_000_000_000_000_000_000_000 * p.synthetic <= U256_MAX
    ensures r.Ok? ==>
              var percent := LiquidityPercent(p).value;
              percent > 0
              && r.value == p.wrapped * 1_000_000_000_000_000_000_000_000 * p.synthetic / (percent * percent)
  {
    PrecisionValues();
    var percent :- LiquidityPercent(p);
    var squared :- MulOr(percent, percent, ApiNone);
    var scaledWrapped :- MulOr(p.wrapped, PRECISION_POINTS_POWER4, ApiNone);
    var product :- MulOr(scaledWrapped, p.synthetic, ApiNone);
    DivOr(product, squared, Div8)
  }

  /** `_get_amount_payout`: the LP tokens that pay out `amount`. */
  function AmountPayout(p: PoolView, amount: U256): (r: StResult<U256>)
    ensures LiquidityPercent(p).Err? ==> r == LiquidityPercent(p)
    ensures r.Ok? <==>
              LiquidityPercent(p).Ok?
              && amount * LiquidityPercent(p).value <= U256_MAX
              && amount * LiquidityPercent(p).value * 1_000_000 <= U256_MAX
              && amount * LiquidityPercent(p).value * 1_000_000 * p.lpBalance <= U256_MAX
              && p.wrapped > 0
    ensures r == Err(ApiNone) <==>
              LiquidityPercent(p) == Err(ApiNone)
              || (LiquidityPercent(p).Ok?
                  && !(amount * LiquidityPercent(p).value <= U256_MAX
                       && amount * LiquidityPercent(p).value * 1_000_000 <= U256_MAX
                       && amount * LiquidityPercent(p).value * 1_000_000 * p.lpBalance <= U256_MAX))
    ensures r.Err? ==> r.error == ApiNone || r.error == Div5 || r.error == Div6
    ensures r == Err(Div6) <==>
              LiquidityPercent(p).Ok?
              && amount * LiquidityPercent(p).value <= U256_MAX
              && amount * LiquidityPercent(p).value * 1_000_000 <= U256_MAX
              && amount * LiquidityPercent(p).value * 1_000_000 * p.lpBalance <= U256_MAX
              && p.wrapped == 0
    ensures r.Ok? ==>
              p.wrapped > 0
              && r.value == amount * LiquidityPercent(p).value * 1_000_000 * p.lpBalance
                            / p.wrapped / 1_000_000_000_000_000_000
  {
    PrecisionValues();
    var percent :- LiquidityPercent(p);
    var scaled :- MulOr(amount, percent, ApiNone);
    var product :- MulOr(scaled, PRECISION_POINTS, ApiNone);
    var withLp :- MulOr(product, p.lpBalance, ApiNone);
    var quotient :- DivOr(withLp, p.wrapped, Div6);
    DivOr(quotient, PRECISION_POINTS_POWER3, Div7)
  }

  /** The `ratio_amount` of `_get_trading_fee_amount`:
      previous * 10^24 / current. */
  function EvaluationRatio(previous: U256, current: U256): (r: StResult<U256>)
    ensures r.Ok? <==> previous * 1_000_000_000_000_000_000_000_000 <= U256_MAX && current > 0
    ensures r == Err(ApiNone) <==> previous * 1_000_000_000_000_000_000_000_000 > U256_MAX
    ensures r.Err? ==> r.error == ApiNone || r.error == Div1
    ensures r.Ok? ==> r.value == previous * 1_000_000_000_000_000_000_000_000 / current
  {
    PrecisionValues();
    var scaledPrevious :- MulOr(previous, PRECISION_POINTS_POWER4, ApiNone);
    DivOr(scaledPrevious, current, Div1)
  }

  /** The `recipient_amount` of `_get_trading_fee_amount`:
      synthetic * 10^12 / wrapped. */
  function RecipientAmount(p: PoolView): (r: StResult<U256>)
    ensures r.Ok? <==> p.synthetic * 1_000_000_000_000 <= U256_MAX && p.wrapped > 0
    ensures r == Err(ApiNone) <==> p.synthetic * 1_000_000_000_000 > U256_MAX
    ensures r.Err? ==> r.error == ApiNone || r.error == Div2
    ensures r.Ok? ==> r.value == p.synthetic * 1_000_000_000_000 / p.wrapped
  {
    PrecisionValues();
    var scaledSynthetic :- MulOr(p.synthetic, PRECISION_POINTS_POWER2, ApiNone);
    DivOr(scaledSynthetic, p.wrapped, Div2)
  }

  /** An unchanged evaluation gives the ratio 10^24 exactly. */
  lemma EvaluationRatioUnchanged(evaluation: U256)
    requires evaluation > 0 && evaluation * 1_000_000_000_000_000_000_000_000 <= U256_MAX
    ensures EvaluationRatio(evaluation, evaluation) == Ok(1_000_000_000_000_000_000_000_000)
  {
    MulDivCancel(evaluation, 1_000_000_000_000_000_000_000_000);
  }

  /** `_get_trading_fee_amount`: the LP tokens to remove as trading fees
      when the evaluation went from `previous` to `current`. */
  function TradingFeeAmount(p: PoolView, previous: U256, current: U256): (r: StResult<U256>)
    ensures previous * 1_000_000_000_000_000_000_000_000 > U256_MAX ==> r == Err(ApiNone)
    ensures previous * 1_000_000_000_000_000_000_000_000 <= U256_MAX && current == 0 ==> r == Err(Div1)
    ensures r.Ok? ==> current > 0 && p.wrapped > 0
    ensures r.Ok? ==> LiquidityPercent(p).Ok? && LiquidityPercent(p).value > 0
  {
    var ratioAmount :- EvaluationRatio(previous, current);
    var recipientAmount :- RecipientAmount(p);
    var gap :- SubOr(PRECISION_POINTS_POWER2, Sqrt256(ratioAmount), Sub1);
    var scaledGap :- MulOr(gap, Sqrt256(recipientAmount), ApiNone);
    var withLp :- MulOr(scaledGap, p.lpBalance, ApiNone);
    var percent :- LiquidityPercent(p);
    var difference :- DivOr(withLp, percent, Div3);
    DivOr(difference, PRECISION_POINTS, Div4)
  }

  /** A fee that is computed is (10^12 - sqrt(previous * 10^24 / current))
      * sqrt(synthetic * 10^12 / wrapped) * lpBalance / percent / 10^6. */
  lemma TradingFeeValue(p: PoolView, previous: U256, current: U256)
    requires TradingFeeAmount(p, previous, current).Ok?
    ensures current > 0 && p.wrapped > 0
    ensures ISqrt(previous * 1_000_000_000_000_000_000_000_000 / current) <= 1_000_000_000_000
    ensures TradingFeeAmount(p, previous, current).value
            == (1_000_000_000_000 - ISqrt(previous * 1_000_000_000_000_000_000_000_000 / current))
               * ISqrt(p.synthetic * 1_000_000_000_000 / p.wrapped)
               * p.lpBalance / LiquidityPercent(p).value / 1_000_000
  {
    PrecisionValues();
  }


  /** The fee formula reverts with Sub1 when the square root of the
      evaluation ratio exceeds 10^12, that is, when the evaluation fell
      far enough for the fee to turn negative. */
  lemma TradingFeeSub1(p: PoolView, previous: U256, current: U256)
    requires previous * 1_000_000_000_000_000_000_000_000 <= U256_MAX && current > 0
    requires p.synthetic * 1_000_000_000_000 <= U256_MAX && p.wrapped > 0
    requires ISqrt(previous * 1_000_000_000_000_000_000_000_000 / current) > 1_000_000_000_000
    ensures TradingFeeAmount(p, previous, current) == Err(Sub1)
  {
    PrecisionValues();
  }


  /** a <= b implies c * a <= c * b. */
  lemma MulMonotone(c: nat, a: nat, b: nat)
    requires a <= b
    ensures c * a <= c * b
  {
  }

  /** (a * b) / a == b for a positive a. */
  lemma MulDivCancel(a: nat, b: nat)
    requires a > 0
    ensures (a * b) / a == b
  {
    var q := (a * b) / a;
    assert a * q <= a * b < a * q + a;
    if q < b {
      MulMonotone(a, q + 1, b);
      assert false;
    } else if q > b {
      MulMonotone(a, b + 1, q);
      assert false;
    }
  }

  /** An unchanged evaluation yields no trading fee. */
  lemma TradingFeeUnchanged(p: PoolView, evaluation: U256)
    requires evaluation > 0 && evaluation * 1_000_000_000_000_000_000_000_000 <= U256_MAX
    requires p.synthetic * 1_000_000_000_000 <= U256_MAX && p.wrapped > 0
    requires LiquidityPercent(p).Ok? && LiquidityPercent(p).value > 0
    ensures TradingFeeAmount(p, evaluation, evaluation) == Ok(0)
  {
    PrecisionValues();
    EvaluationRatioUnchanged(evaluation);
    assert Sqrt256(1_000_000_000_000_000_000_000_000) == 1_000_000_000_000 by {
      ISqrtOfSquare(1_000_000_000_000);
    }
    // The gap is 0, and so is every product and quotient after it.
    var recipient := RecipientAmount(p);
    assert recipient.Ok?;
    assert MulOr(0, Sqrt256(recipient.value), ApiNone) == Ok(0);
    assert MulOr(0, p.lpBalance, ApiNone) == Ok(0);
    assert SubOr(PRECISION_POINTS_POWER2, Sqrt256(1_000_000_000_000_000_000_000_000), Sub1) == Ok(0);
    assert DivOr(0, LiquidityPercent(p).value, Div3) == Ok(0);
    assert DivOr(0, PRECISION_POINTS, Div4) == Ok(0);
  }



  // ---------------------------------------------------------------------
  // Arbitrage formulas
  // ---------------------------------------------------------------------

  /** The first radicand term's numerator in `_sqrt_term`,
      big * small * TRADING_FEE * 4, multiplied step by step with checks. */
  function FeeTermNumerator(small: U256, big: U256): (r: StResult<U256>)
    ensures r.Err? ==> r.error == ApiNone
    ensures r.Ok? <==> big * small * 997_500_000_000 * 4 <= U256_MAX
    ensures r.Ok? ==> r.value == big * small * 997_500_000_000 * 4
  {
    FeeValues();
    var product :- MulOr(big, small, ApiNone);
    var withFee :- MulOr(product, TRADING_FEE, ApiNone);
    MulOr(withFee, 4, ApiNone)
  }

  /** The second radicand term's numerator in `_sqrt_term`,
      small * small * inverseFee * inverseFee, multiplied step by step
      with checks. */
  function InverseFeeTermNumerator(small: U256, inverseFee: U256): (r: StResult<U256>)
    ensures r.Err? ==> r.error == ApiNone
    ensures r.Ok? <==> small * small <= U256_MAX && small * small * inverseFee * inverseFee <= U256_MAX
    ensures r.Ok? ==> r.value == small * small * inverseFee * inverseFee
  {
    ProductGrows(small * small * inverseFee, inverseFee);
    var square :- MulOr(small, small, ApiNone);
    var once :- MulOr(square, inverseFee, ApiNone);
    MulOr(once, inverseFee, ApiNone)
  }

  /** A product with a positive factor is at least the other factor. */
  lemma ProductGrows(x: nat, k: nat)
    ensures k >= 1 ==> x * k >= x
  {
    if k >= 1 {
      MulMonotone(x, 1, k);
    }
  }

  /** `_sqrt_term`: the integer square root of
      big * small * TRADING_FEE * 4 / 10^12 + small^2 * inverseFee^2 / 10^24.
      The two divisions are by nonzero constants, so Div9 and Div10 never
      occur; only an overflow reverts. */
  function SqrtTerm(small: U256, big: U256, inverseFee: U256): (r: StResult<U256>)
    ensures r.Err? ==> r.error == ApiNone
    ensures r.Ok? <==>
              big * small * 997_500_000_000 * 4 <= U256_MAX
              && small * small <= U256_MAX && small * small * inverseFee * inverseFee <= U256_MAX
    ensures r.Ok? ==>
              var radicand := big * small * 997_500_000_000 * 4 / 1_000_000_000_000
                                 + small * small * inverseFee * inverseFee
                                   / 1_000_000_000_000_000_000_000_000;
                 r.value * r.value <= radicand < (r.value + 1) * (r.value + 1)
  {
    PrecisionValues();
    var quadrupled :- FeeTermNumerator(small, big);
    // Div9 and Div10 guard divisions by nonzero constants.
    var term1: U256 := quadrupled / PRECISION_POINTS_POWER2;
    var twice :- InverseFeeTermNumerator(small, inverseFee);
    var term2: U256 := twice / PRECISION_POINTS_POWER4;
    // The checked addition of the source cannot fail: both terms are
    // quotients by at least 10^12.
    assert term1 <= U256_MAX / 1_000_000_000_000;
    assert term2 <= U256_MAX / 1_000_000_000_000;
    var radicand: U256 := term1 + term2;
    Ok(Sqrt256(radicand))
  }

  /** The pair's surplus over a balanced pair of the same product,
      w + s - 2 * sqrt(w * s), as `_profit_arbitrage_remove` computes it. */
  function Surplus(p: PoolView): (r: StResult<U256>)
    ensures r.Err? ==> r.error == ApiNone
    ensures r.Ok? <==> p.wrapped * p.synthetic <= U256_MAX && p.wrapped + p.synthetic <= U256_MAX
    ensures r.Ok? ==>
              GetDoubleRoot(p.wrapped * p.synthetic) <= p.wrapped + p.synthetic
              && r.value == p.wrapped + p.synthetic - GetDoubleRoot(p.wrapped * p.synthetic)
  {
    // The checked product and sum revert with ApiNone; the checked
    // subtraction cannot fail once both fit.
    if p.wrapped * p.synthetic > U256_MAX || p.wrapped + p.synthetic > U256_MAX then Err(ApiNone)
    else
      DoubleRootAtMostSum(p.wrapped, p.synthetic);
      Ok(p.wrapped + p.synthetic - GetDoubleRoot(p.wrapped * p.synthetic))
  }

  /** The first steps of `_profit_arbitrage_remove`: the pair's surplus
      w + s - 2 * sqrt(w * s), times the LP balance and the liquidity
      percent, per wrapped token. */
  function SurplusShare(p: PoolView): (r: StResult<U256>)
    ensures r.Err? ==> r.error == ApiNone || r.error == Div5 || r.error == Div11
    ensures r.Ok? <==>
              Surplus(p).Ok? && Surplus(p).value * p.lpBalance <= U256_MAX
              && LiquidityPercent(p).Ok?
              && Surplus(p).value * p.lpBalance * LiquidityPercent(p).value <= U256_MAX
              && p.wrapped > 0
    ensures r == Err(Div5) <==>
              Surplus(p).Ok? && Surplus(p).value * p.lpBalance <= U256_MAX
              && LiquidityPercent(p) == Err(Div5)
    ensures r.Ok? ==>
              Surplus(p).Ok? && LiquidityPercent(p).Ok?
              && r.value == Surplus(p).value * p.lpBalance * LiquidityPercent(p).value / p.wrapped
  {
    var surplus :- Surplus(p);
    var withLp :- MulOr(surplus, p.lpBalance, ApiNone);
    var percent :- LiquidityPercent(p);
    var scaled :- MulOr(withLp, percent, ApiNone);
    assert scaled == surplus * p.lpBalance * percent;
    DivOr(scaled, p.wrapped, Div11)
  }

  /** The division by the wrapped reserve (Div11) is reached exactly when
      every multiplication before it fits and the wrapped reserve is zero. */
  lemma SurplusShareDivision(p: PoolView)
    ensures SurplusShare(p) == Err(Div11) <==>
              Surplus(p).Ok? && Surplus(p).value * p.lpBalance <= U256_MAX
              && LiquidityPercent(p).Ok?
              && Surplus(p).value * p.lpBalance * LiquidityPercent(p).value <= U256_MAX
              && p.wrapped == 0
  {
  }

  /** `_profit_arbitrage_remove`: the LP tokens to remove so that the
      pair's surplus (w + s - 2 * sqrt(w * s)) is taken out, scaled by the
      liquidity percent and LIQUIDITY_PERCENTAGE_CORRECTION. Div12 (a
      division by 10^18) never occurs. */
  function ProfitArbitrageRemove(p: PoolView): (r: StResult<U256>)
    ensures r.Err? ==> r.error == ApiNone || r.error == Div5 || r.error == Div11
    ensures SurplusShare(p).Err? ==> r == SurplusShare(p)
    ensures r.Ok? <==> SurplusShare(p).Ok? && SurplusShare(p).value * 995_000 <= U256_MAX
    ensures r == Err(Div11) <==> p.wrapped == 0 && SurplusShare(p) == Err(Div11)
    ensures r.Ok? ==>
              p.wrapped * p.synthetic <= U256_MAX && p.wrapped > 0
              && GetDoubleRoot(p.wrapped * p.synthetic) <= p.wrapped + p.synthetic
              && LiquidityPercent(p).Ok?
              && r.value == (p.wrapped + p.synthetic - GetDoubleRoot(p.wrapped * p.synthetic))
                            * p.lpBalance * LiquidityPercent(p).value / p.wrapped
                            * 995_000 / 1_000_000_000_000_000_000
  {
    PrecisionValues();
    FeeValues();
    var perWrapped :- SurplusShare(p);
    var corrected :- MulOr(perWrapped, LIQUIDITY_PERCENTAGE_CORRECTION, ApiNone);
    DivOr(corrected, PRECISION_POINTS_POWER3, Div12)
  }

  /** The surplus subtraction of `_profit_arbitrage_remove` never
      underflows: once the product and the sum fit, 2 * sqrt(w * s) <= w + s. */
  lemma ProfitArbitrageNoUnderflow(p: PoolView)
    requires p.wrapped * p.synthetic <= U256_MAX && p.wrapped + p.synthetic <= U256_MAX
    ensures SubOr(p.wrapped + p.synthetic, GetDoubleRoot(p.wrapped * p.synthetic), ApiNone).Ok?
  {
    DoubleRootAtMostSum(p.wrapped, p.synthetic);
  }

  /** A balanced pair has no surplus: with equal balances the amount to
      remove is 0. */
  lemma ProfitArbitrageBalanced(p: PoolView)
    requires p.wrapped == p.synthetic > 0 && p.wrapped * p.synthetic <= U256_MAX
    requires LiquidityPercent(p).Ok?
    ensures ProfitArbitrageRemove(p) == Ok(0)
  {
    assert p.wrapped + p.synthetic <= U256_MAX by {
      if p.wrapped > 1 {
        SquareMonotone(2, p.wrapped);
      }
    }
    assert Surplus(p) == Ok(0) by { DoubleRootOfSquare(p.wrapped); }
    assert MulOr(0, p.lpBalance, ApiNone) == Ok(0);
    assert MulOr(0, LiquidityPercent(p).value, ApiNone) == Ok(0);
    assert SurplusShare(p) == Ok(0);
    PrecisionValues();
    FeeValues();
  }

  /** g * t / d <= t whenever g <= d. */
  lemma ScaledShareAtMost(g: nat, t: nat, d: nat)
    requires 0 < d && g <= d
    ensures g * t / d <= t
  {
    MulMonotone(t, g, d);
    assert g * t <= d * t;
    if g * t / d > t {
      MulMonotone(d, t + 1, g * t / d);
      assert false;
    }
  }

  /** The left-over percentage of `_to_remove_cspr`,
      (small * inverseFee * 10^12 + sqrtTerm * 10^24) * 10^6 / (2 * big),
      computed step by step with checks; a zero big balance reverts. */
  function LeftOverPercent(small: U256, big: U256, sqrtTerm: U256, inverseFee: U256): (r: StResult<U256>)
    ensures r.Err? ==> r.error == ApiNone
    ensures r.Ok? <==>
              small * inverseFee * 1_000_000_000_000 <= U256_MAX
              && sqrtTerm * 1_000_000_000_000_000_000_000_000 <= U256_MAX
              && (small * inverseFee * 1_000_000_000_000
                  + sqrtTerm * 1_000_000_000_000_000_000_000_000) * 1_000_000 <= U256_MAX
              && big * 2 <= U256_MAX && big > 0
    ensures r.Ok? ==>
              r.value == (small * inverseFee * 1_000_000_000_000
                          + sqrtTerm * 1_000_000_000_000_000_000_000_000) * 1_000_000 / (big * 2)
  {
    PrecisionValues();
    ProductGrows(small * inverseFee, 1_000_000_000_000);
    var scaledSmall :- MulOr(small, inverseFee, ApiNone);
    var term2 :- MulOr(scaledSmall, PRECISION_POINTS_POWER2, ApiNone);
    var scaledRoot :- MulOr(sqrtTerm, PRECISION_POINTS_POWER4, ApiNone);
    var numerator :- AddOr(term2, scaledRoot, ApiNone);
    var scaledNumerator :- MulOr(numerator, PRECISION_POINTS, ApiNone);
    var doubledBig :- MulOr(big, 2, ApiNone);
    DivOr(scaledNumerator, doubledBig, ApiNone)
  }

  /** `_to_remove_cspr`: the LP tokens to remove when the pair holds too
      little wcspr, a share (10^30 - leftOver) / 10^30 of the pair's total
      supply. Every failure reverts with ApiNone, including a zero
      synthetic balance. */
  function ToRemoveCspr(p: PoolView, inverseFee: U256): (r: StResult<U256>)
    ensures r.Err? ==> r.error == ApiNone
    ensures SqrtTerm(p.wrapped, p.synthetic, inverseFee).Err? ==> r == Err(ApiNone)
    ensures r.Ok? <==>
              SqrtTerm(p.wrapped, p.synthetic, inverseFee).Ok?
              && var leftOver := LeftOverPercent(p.wrapped, p.synthetic,
                                                 SqrtTerm(p.wrapped, p.synthetic, inverseFee).value, inverseFee);
                 leftOver.Ok? && leftOver.value <= 1_000_000_000_000_000_000_000_000_000_000
                 && (1_000_000_000_000_000_000_000_000_000_000 - leftOver.value) * p.totalSupply <= U256_MAX
    ensures r.Ok? ==>
              var leftOver := LeftOverPercent(p.wrapped, p.synthetic,
                                              SqrtTerm(p.wrapped, p.synthetic, inverseFee).value, inverseFee).value;
              r.value == (1_000_000_000_000_000_000_000_000_000_000 - leftOver) * p.totalSupply
                         / 1_000_000_000_000_000_000_000_000_000_000
    ensures r.Ok? ==> p.synthetic > 0 && r.value <= p.totalSupply
  {
    PrecisionValues();
    var sqrtTerm :- SqrtTerm(p.wrapped, p.synthetic, inverseFee);
    var leftOver :- LeftOverPercent(p.wrapped, p.synthetic, sqrtTerm, inverseFee);
    var remaining :- SubOr(PRECISION_POINTS_POWER5, leftOver, ApiNone);
    var share :- MulOr(remaining, p.totalSupply, ApiNone);
    ScaledShareAtMost(remaining, p.totalSupply, PRECISION_POINTS_POWER5);
    DivOr(share, PRECISION_POINTS_POWER5, ApiNone)
  }

  /** `_swap_amount_arbitrage_scspr`: the synthetic tokens to swap,
      (sqrtTerm * 10^12 - s * (2 * 10^12 - inverseFee)) / (2 * TRADING_FEE).
      An inverse fee above 2 * 10^12 reverts. */
  function SwapAmountArbitrageScspr(p: PoolView, inverseFee: U256): (r: StResult<U256>)
    ensures r.Err? ==> r.error == ApiNone
    ensures inverseFee > 2_000_000_000_000 ==> r == Err(ApiNone)
    ensures r.Ok? <==>
              inverseFee <= 2_000_000_000_000
              && p.synthetic * (2_000_000_000_000 - inverseFee) <= U256_MAX
              && SqrtTerm(p.synthetic, p.wrapped, inverseFee).Ok?
              && SqrtTerm(p.synthetic, p.wrapped, inverseFee).value * 1_000_000_000_000 <= U256_MAX
              && p.synthetic * (2_000_000_000_000 - inverseFee)
                 <= SqrtTerm(p.synthetic, p.wrapped, inverseFee).value * 1_000_000_000_000
    ensures r.Ok? ==>
              var numerator := SqrtTerm(p.synthetic, p.wrapped, inverseFee).value * 1_000_000_000_000
                               - p.synthetic * (2_000_000_000_000 - inverseFee);
              r.value * 1_995_000_000_000 <= numerator < (r.value + 1) * 1_995_000_000_000
  {
    PrecisionValues();
    FeeValues();
    // TRADING_FEE * 2 and PRECISION_POINTS_POWER2 * 2 are checked in the
    // source but are constants that always fit.
    var denominator: U256 := TRADING_FEE * 2;
    var doublePrecision: U256 := PRECISION_POINTS_POWER2 * 2;
    var weight :- SubOr(doublePrecision, inverseFee, ApiNone);
    var numTerm2 :- MulOr(p.synthetic, weight, ApiNone);
    var sqrtTerm :- SqrtTerm(p.synthetic, p.wrapped, inverseFee);
    var scaledRoot :- MulOr(sqrtTerm, PRECISION_POINTS_POWER2, ApiNone);
    var numerator :- SubOr(scaledRoot, numTerm2, ApiNone);
    DivOr(numerator, denominator, ApiNone)
  }

  // ---------------------------------------------------------------------
  // Decisions
  // ---------------------------------------------------------------------

  /** The test of `_fees_decision`: fees are extracted when
      current * EQUALIZE_SIZE_VALUE > previous * TRADING_FEE_CONDITION,
      that is, when the evaluation grew by more than one part in 10^8. */
  function FeesCondition(previous: U256, current: U256): (r: StResult<bool>)
    ensures r.Ok? <==> previous * 100_000_001 <= U256_MAX && current * 100_000_000 <= U256_MAX
    ensures r.Err? ==> r.error == ApiNone
    ensures r.Ok? ==> (r.value <==> current * 100_000_000 > previous * 100_000_001)
  {
    FeeValues();
    var previousCondition :- MulOr(previous, TRADING_FEE_CONDITION, ApiNone);
    var newCondition :- MulOr(current, EQUALIZE_SIZE_VALUE, ApiNone);
    Ok(newCondition > previousCondition)
  }

  /** Fees are extracted only after the evaluation strictly grew. */
  lemma FeesConditionGrowth(previous: U256, current: U256)
    requires FeesCondition(previous, current) == Ok(true)
    ensures current > previous
  {
  }

  /** When the fee test passes, the fee formula cannot revert with Sub1:
      previous < current keeps the evaluation ratio below 10^24 and its
      root at most 10^12. */
  lemma ExtractedFeeNeverSub1(p: PoolView, previous: U256, current: U256)
    requires FeesCondition(previous, current) == Ok(true)
    ensures TradingFeeAmount(p, previous, current) != Err(Sub1)
  {
    if TradingFeeAmount(p, previous, current) == Err(Sub1) {
      TradingFeeSub1Cause(p, previous, current);
      var ratio := previous * 1_000_000_000_000_000_000_000_000 / current;
      RatioBelowScale(previous, current);
      ISqrtMonotone(ratio, 1_000_000_000_000 * 1_000_000_000_000);
      ISqrtOfSquare(1_000_000_000_000);
      assert false;
    }
  }

  /** previous < current gives previous * 10^24 / current <= 10^24. */
  lemma RatioBelowScale(previous: nat, current: nat)
    requires previous < current
    ensures previous * 1_000_000_000_000_000_000_000_000 / current
            <= 1_000_000_000_000 * 1_000_000_000_000
  {
    var scale := 1_000_000_000_000_000_000_000_000;
    ScaledShareAtMost(previous, scale, current);
    assert previous * scale == scale * previous;
  }

  /** A Sub1 revert of the fee formula comes from a root above 10^12. */
  lemma TradingFeeSub1Cause(p: PoolView, previous: U256, current: U256)
    requires TradingFeeAmount(p, previous, current) == Err(Sub1)
    ensures previous * 1_000_000_000_000_000_000_000_000 <= U256_MAX && current > 0
    ensures ISqrt(previous * 1_000_000_000_000_000_000_000_000 / current) > 1_000_000_000_000
  {
    PrecisionValues();
  }

  /** What `_fees_decision` does when the stored evaluation is
      `previous`: None when the evaluation did not grow enough, otherwise
      the trading fee amount that `_extract_and_send_fees` removes, which
      follows a strict rise of the evaluation. */
  function FeeExtraction(pool: PoolView, previous: U256): (r: StResult<Option<U256>>)
    ensures Evaluation(pool).Err? ==> r == Err(Evaluation(pool).error)
    ensures Evaluation(pool).Ok? && FeesCondition(previous, Evaluation(pool).value).Err?
            ==> r == Err(ApiNone)
    ensures r == Ok(None) <==>
              Evaluation(pool).Ok? && FeesCondition(previous, Evaluation(pool).value) == Ok(false)
    ensures Evaluation(pool).Ok? && FeesCondition(previous, Evaluation(pool).value) == Ok(true)
            ==> var fee := TradingFeeAmount(pool, previous, Evaluation(pool).value);
                (fee.Err? ==> r == Err(fee.error)) && (fee.Ok? ==> r == Ok(Some(fee.value)))
    ensures r.Ok? && r.value.Some? ==>
              Evaluation(pool).Ok? && Evaluation(pool).value > previous
              && TradingFeeAmount(pool, previous, Evaluation(pool).value) == Ok(r.value.value)
  {
    var evaluation :- Evaluation(pool);
    var extract :- FeesCondition(previous, evaluation);
    if !extract then Ok(None)
    else
      var fee :- TradingFeeAmount(pool, previous, evaluation);
      Ok(Some(fee))
  }

  /** The fee decision never reverts with Sub1. */
  lemma FeeExtractionNeverSub1(pool: PoolView, previous: U256)
    ensures FeeExtraction(pool, previous) != Err(Sub1)
  {
    if Evaluation(pool).Ok? && FeesCondition(previous, Evaluation(pool).value) == Ok(true) {
      ExtractedFeeNeverSub1(pool, previous, Evaluation(pool).value);
    }
  }

  /** The branch `_arbitrage_decision` takes. */
  datatype ArbitrageBranch = ArbitrageCspr | ArbitrageScspr | NoArbitrage

  /** `_arbitrage_decision`: too little wcspr in the pair calls for the
      cspr arbitrage, too much for the scspr arbitrage, equal balances for
      neither. */
  function ArbitrageDecision(wrapped: U256, synthetic: U256): (b: ArbitrageBranch)
    ensures b == ArbitrageCspr <==> wrapped < synthetic
    ensures b == ArbitrageScspr <==> wrapped > synthetic
    ensures b == NoArbitrage <==> wrapped == synthetic
  {
    if wrapped < synthetic then ArbitrageCspr
    else if wrapped > synthetic then ArbitrageScspr
    else NoArbitrage
  }

  /** The early exit of `_arbitrage_scspr`. Its products use U256's
      unchecked `*`, which panics on overflow; Ok(true) means the routine
      goes on past its guard. */
  function ArbitrageScsprGuard(wrapped: U256, synthetic: U256): (r: StResult<bool>)
    ensures r.Err? <==> wrapped * 1_000_000 > U256_MAX || synthetic * 1_000_001 > U256_MAX
    ensures r.Err? ==> r.error == Panic
    ensures r == Ok(true) <==>
              wrapped * 1_000_000 <= U256_MAX && synthetic * 1_000_001 <= U256_MAX
              && wrapped * 1_000_000 > synthetic * 1_000_001
  {
    FeeValues();
    if wrapped * PRECISION_POINTS > U256_MAX || synthetic * ARBITRAGE_CONDITION > U256_MAX then Err(Panic)
    else Ok(wrapped * PRECISION_POINTS > synthetic * ARBITRAGE_CONDITION)
  }

  /** The early exit of `_arbitrage_cspr`, with checked products that
      revert with ApiNone; Ok(true) means the routine goes on. */
  function ArbitrageCsprGuard(wrapped: U256, synthetic: U256): (r: StResult<bool>)
    ensures r.Err? <==> wrapped * 1_000_001 > U256_MAX || synthetic * 1_000_000 > U256_MAX
    ensures r.Err? ==> r.error == ApiNone
    ensures r == Ok(true) <==>
              wrapped * 1_000_001 <= U256_MAX && synthetic * 1_000_000 <= U256_MAX
              && wrapped * 1_000_001 < synthetic * 1_000_000
  {
    FeeValues();
    var conditionWcspr :- MulOr(wrapped, ARBITRAGE_CONDITION, ApiNone);
    var conditionScspr :- MulOr(synthetic, PRECISION_POINTS, ApiNone);
    Ok(conditionWcspr < conditionScspr)
  }

  /** Passing either guard needs an imbalance of more than one part in
      10^6, in the direction of the branch that holds the guard. */
  lemma ArbitrageGuardsAgreeWithDecision(wrapped: U256, synthetic: U256)
    ensures ArbitrageScsprGuard(wrapped, synthetic) == Ok(true)
            ==> ArbitrageDecision(wrapped, synthetic) == ArbitrageScspr
                && wrapped * 1_000_000 > synthetic * 1_000_000 + synthetic
    ensures ArbitrageCsprGuard(wrapped, synthetic) == Ok(true)
            ==> ArbitrageDecision(wrapped, synthetic) == ArbitrageCspr
                && wrapped * 1_000_000 + wrapped < synthetic * 1_000_000
  {
  }

  /** `_arbitrage_decision` with the reverts of the branch it takes.
      `pool` is the pair when the decision is taken; `rebalanced` is the
      pair once the first liquidity removal (and the unwrap, the profit
      transfer and, on the scspr side, the mint) is done, where the
      second formula of the branch reads its balances. */
  function ArbitrageOutcome(pool: PoolView, rebalanced: PoolView, inverseFee: U256): (r: Outcome<StError>)
    ensures ArbitrageDecision(pool.wrapped, pool.synthetic) == NoArbitrage ==> r == Pass
    ensures ArbitrageDecision(pool.wrapped, pool.synthetic) == ArbitrageCspr ==>
              (ArbitrageCsprGuard(pool.wrapped, pool.synthetic).Err? ==> r == Fail(ApiNone))
              && (ArbitrageCsprGuard(pool.wrapped, pool.synthetic) == Ok(false) ==> r == Pass)
              && (ArbitrageCsprGuard(pool.wrapped, pool.synthetic) == Ok(true) ==>
                    (ProfitArbitrageRemove(pool).Err? ==> r == Fail(ProfitArbitrageRemove(pool).error))
                    && (ProfitArbitrageRemove(pool).Ok? ==>
                          (r == Pass <==> ToRemoveCspr(rebalanced, inverseFee).Ok?)
                          && (r.Fail? ==> r.error == ApiNone)))
    ensures ArbitrageDecision(pool.wrapped, pool.synthetic) == ArbitrageScspr ==>
              (ArbitrageScsprGuard(pool.wrapped, pool.synthetic).Err? ==> r == Fail(Panic))
              && (ArbitrageScsprGuard(pool.wrapped, pool.synthetic) == Ok(false) ==> r == Pass)
              && (ArbitrageScsprGuard(pool.wrapped, pool.synthetic) == Ok(true) ==>
                    (ProfitArbitrageRemove(pool).Err? ==> r == Fail(ProfitArbitrageRemove(pool).error))
                    && (ProfitArbitrageRemove(pool).Ok? ==>
                          (r == Pass <==> SwapAmountArbitrageScspr(rebalanced, inverseFee).Ok?)
                          && (r.Fail? ==> r.error == ApiNone)))
    ensures r.Fail? ==> r.error in {ApiNone, Div5, Div11, Panic}
  {
    match ArbitrageDecision(pool.wrapped, pool.synthetic)
    case NoArbitrage => Pass
    case ArbitrageCspr =>
      var guard := ArbitrageCsprGuard(pool.wrapped, pool.synthetic);
      if guard.Err? then Fail(guard.error)
      else if !guard.value then Pass
      else if ProfitArbitrageRemove(pool).Err? then Fail(ProfitArbitrageRemove(pool).error)
      else if ToRemoveCspr(rebalanced, inverseFee).Err? then Fail(ToRemoveCspr(rebalanced, inverseFee).error)
      else Pass
    case ArbitrageScspr =>
      var guard := ArbitrageScsprGuard(pool.wrapped, pool.synthetic);
      if guard.Err? then Fail(guard.error)
      else if !guard.value then Pass
      else if ProfitArbitrageRemove(pool).Err? then Fail(ProfitArbitrageRemove(pool).error)
      else if SwapAmountArbitrageScspr(rebalanced, inverseFee).Err? then
        Fail(SwapAmountArbitrageScspr(rebalanced, inverseFee).error)
      else Pass
  }

  /** With an empty wrapped reserve the surplus is the synthetic balance:
      w * s and its double root are 0. */
  lemma EmptyWrappedSurplus(pool: PoolView)
    requires pool.wrapped == 0
    ensures Surplus(pool) == Ok(pool.synthetic)
  {
    DoubleRootOfSquare(0);
  }

  /** A pair whose wrapped reserve is empty while synthetic tokens are in
      it takes the cspr arbitrage and passes its guard, and
      `_profit_arbitrage_remove` then cannot succeed: the arbitrage
      always reverts, with that formula's error. */
  lemma EmptyWrappedReserveReverts(pool: PoolView, rebalanced: PoolView, inverseFee: U256)
    requires pool.wrapped == 0 < pool.synthetic
    requires pool.synthetic * 1_000_000 <= U256_MAX
    ensures ArbitrageOutcome(pool, rebalanced, inverseFee) == Fail(ProfitArbitrageRemove(pool).error)
  {
    assert ArbitrageCsprGuard(pool.wrapped, pool.synthetic) == Ok(true);
  }

  /** An input that shows it: 1000 synthetic tokens, no wrapped ones,
      1000 LP tokens held out of 1000. The arbitrage reverts with Div11,
      the division by the empty wrapped reserve. */
  lemma EmptyWrappedReserveDiv11(rebalanced: PoolView, inverseFee: U256)
    ensures ArbitrageOutcome(PoolView(0, 1000, 1000, 1000), rebalanced, inverseFee) == Fail(Div11)
  {
    var pool := PoolView(0, 1000, 1000, 1000);
    EmptyWrappedSurplus(pool);
    assert LiquidityPercent(pool) == Ok(1_000_000_000_000);
    SurplusShareDivision(pool);
    EmptyWrappedReserveReverts(pool, rebalanced, inverseFee);
  }

  // ---------------------------------------------------------------------
  // Contract state
  // ---------------------------------------------------------------------

  /** The synthetic token's named keys that its own logic reads and
      writes (synthetic_token/synthetic_token_crate/src/data.rs). Unset
      flags read as false, an unset evaluation as 0. */
  class SyntheticToken {
    var owner: Key
    var masterAddress: Key
    var uniswapPair: Key
    var currentEvaluation: U256
    var tokenDefined: bool
    var allowDeposit: bool
    var helperDefined: bool
    var bypassEnabled: bool

    /** `init`: the caller becomes owner and master; every flag starts
        false and the evaluation 0. */
    constructor (caller: Key, pair: Key)
      ensures owner == caller && masterAddress == caller && uniswapPair == pair
      ensures currentEvaluation == 0
      ensures !tokenDefined && !allowDeposit && !helperDefined && !bypassEnabled
    {
      owner := caller;
      masterAddress := caller;
      uniswapPair := pair;
      currentEvaluation := 0;
      tokenDefined := false;
      allowDeposit := false;
      helperDefined := false;
      bypassEnabled := false;
    }

    /** `_update_evaluation`: stores the pool's evaluation; a revert
        leaves the state as it was. */
    method UpdateEvaluation(pool: PoolView) returns (r: Outcome<StError>)
      modifies this
      ensures Evaluation(pool).Ok? ==> r == Pass && currentEvaluation == Evaluation(pool).value
      ensures Evaluation(pool).Err? ==> r == Fail(Evaluation(pool).error)
                                        && currentEvaluation == old(currentEvaluation)
      ensures owner == old(owner) && masterAddress == old(masterAddress)
      ensures uniswapPair == old(uniswapPair)
      ensures tokenDefined == old(tokenDefined) && allowDeposit == old(allowDeposit)
      ensures helperDefined == old(helperDefined) && bypassEnabled == old(bypassEnabled)
    {
      var evaluation := Evaluation(pool);
      if evaluation.Err? {
        return Fail(evaluation.error);
      }
      currentEvaluation := evaluation.value;
      r := Pass;
    }

    /** `_fees_decision`: the trading fee to extract, if any, with the
        stored evaluation as the previous one. */
    method FeesDecision(pool: PoolView) returns (r: StResult<Option<U256>>)
      ensures r == FeeExtraction(pool, currentEvaluation)
    {
      var previous := currentEvaluation;
      var evaluation := Evaluation(pool);
      if evaluation.Err? {
        return Err(evaluation.error);
      }
      var condition := FeesCondition(previous, evaluation.value);
      if condition.Err? {
        return Err(condition.error);
      }
      if !condition.value {
        return Ok(None);
      }
      var fee := TradingFeeAmount(pool, previous, evaluation.value);
      if fee.Err? {
        return Err(fee.error);
      }
      r := Ok(Some(fee.value));
    }

    /** `_unwrap`: the bypass flag is on while the wcspr withdrawal runs
        and off again afterwards. The withdrawal itself is a call into
        the wcspr contract and is not modelled; `bypassDuringWithdraw`
        is the flag as that call would read it. */
    method Unwrap() returns (bypassDuringWithdraw: bool)
      modifies this
      ensures bypassDuringWithdraw && !bypassEnabled
      ensures owner == old(owner) && masterAddress == old(masterAddress)
      ensures uniswapPair == old(uniswapPair) && currentEvaluation == old(currentEvaluation)
      ensures tokenDefined == old(tokenDefined) && allowDeposit == old(allowDeposit)
      ensures helperDefined == old(helperDefined)
    {
      bypassEnabled := true;
      bypassDuringWithdraw := bypassEnabled;
      bypassEnabled := false;
    }
  }
}

=== FILE: synthetic_token_event.dfy ===
/** The events of the synthetic token
    (synthetic_token/synthetic_token_crate/src/event.rs) and the name each
    one is stored under. */
module SyntheticTokenEvents {
  import opened Wrappers
  import opened CasperTypes

  datatype SyntheticTokenEvent =
    | LiquidityRemoved(amountWcspr: U256, amountScspr: U256)
    | SendFeesToMaster(amountWcspr: U256, masterAddress: Key)
    | LiquidityAdded(amountWcspr: U256, amountScspr: U256, liquidity: U256)
    | MasterProfit(amountWcspr: U256, masterAddress: Key)
    | SendArbitrageProfitToMaster(amountWcspr: U256, masterAddress: Key)

  /** The variant of an event, without its fields. */
  datatype EventKind =
    | LiquidityRemovedKind
    | SendFeesToMasterKind
    | LiquidityAddedKind
    | MasterProfitKind
    | SendArbitrageProfitToMasterKind

  function KindOf(e: SyntheticTokenEvent): EventKind {
    match e
    case LiquidityRemoved(_, _) => LiquidityRemovedKind
    case SendFeesToMaster(_, _) => SendFeesToMasterKind
    case LiquidityAdded(_, _, _) => LiquidityAddedKind
    case MasterProfit(_, _) => MasterProfitKind
    case SendArbitrageProfitToMaster(_, _) => SendArbitrageProfitToMasterKind
  }

  /** `type_name`: the event's name, a function of its variant alone.
      Every variant is matched. */
  function TypeName(e: SyntheticTokenEvent): (name: string)
    ensures name == KindName(KindOf(e))
  {
    match e
    case LiquidityRemoved(_, _) => "LiquidityRemoved"
    case SendFeesToMaster(_, _) => "SendFeesToMaster"
    case LiquidityAdded(_, _, _) => "LiquidityAdded"
    case MasterProfit(_, _) => "MasterProfit"
    case SendArbitrageProfitToMaster(_, _) => "SendArbitrageProfitToMaster"
  }

  /** The name of each variant. */
  function KindName(k: EventKind): string {
    match k
    case LiquidityRemovedKind => "LiquidityRemoved"
    case SendFeesToMasterKind => "SendFeesToMaster"
    case LiquidityAddedKind => "LiquidityAdded"
    case MasterProfitKind => "MasterProfit"
    case SendArbitrageProfitToMasterKind => "SendArbitrageProfitToMaster"
  }

  /** Reads the variant back from a stored name. */
  function KindOfName(name: string): (k: Option<EventKind>)
    ensures k.Some? ==> KindName(k.value) == name
  {
    if name == "LiquidityRemoved" then Some(LiquidityRemovedKind)
    else if name == "SendFeesToMaster" then Some(SendFeesToMasterKind)
    else if name == "LiquidityAdded" then Some(LiquidityAddedKind)
    else if name == "MasterProfit" then Some(MasterProfitKind)
    else if name == "SendArbitrageProfitToMaster" then Some(SendArbitrageProfitToMasterKind)
    else None
  }

  /** The stored name identifies the variant: reading it back gives the
      event's own variant. */
  lemma TypeNameRoundTrip(e: SyntheticTokenEvent)
    ensures KindOfName(TypeName(e)) == Some(KindOf(e))
  {
  }

  /** Two events share a name exactly when they are of the same variant,
      whatever their fields: the five names are pairwise distinct. */
  lemma TypeNameDistinct(e1: SyntheticTokenEvent, e2: SyntheticTokenEvent)
    ensures TypeName(e1) == TypeName(e2) <==> KindOf(e1) == KindOf(e2)
  {
    TypeNameRoundTrip(e1);
    TypeNameRoundTrip(e2);
  }
}

=== FILE: wrappers.dfy ===
/** Failure-compatible wrappers used for the contracts' revert paths. */
module Wrappers {

  datatype Option<+T> = None | Some(value: T) {
    function GetOr(default: T): T {
      match this
      case Some(v) => v
      case None => default
    }
  }

  /** A call either returns a value or reverts with an error; a revert
      rolls back every write the call made. */
  datatype Result<+R, +E> = Ok(value: R) | Err(error: E) {
    predicate IsFailure() {
      Err?
    }

    function PropagateFailure<U>(): Result<U, E>
      requires Err?
    {
      Err(error)
    }

    function Extract(): R
      requires Ok?
    {
      value
    }
  }

  /** Outcome of a guard (a contract "modifier"): it passes or reverts. */
  datatype Outcome<+E> = Pass | Fail(error: E) {
    predicate IsFailure() {
      Fail?
    }

    function PropagateFailure<U>(): Result<U, E>
      requires Fail?
    {
      Err(error)
    }
  }
}
